=== FILE: README.md ===
# Stock bookkeeping of a small ERP, modelled in Dafny

This project models the stock bookkeeping of a Django ERP back end. Purchase
orders bring goods in. Sales orders reserve, reduce and release them. A
`Stock` row per (item, warehouse) keeps the on-hand quantity, the reserved
quantity, the stored `available_quantity` and a weighted average cost.
Low-stock alerts track rows at or below their minimum. Payments, ledger
entries and profit-and-loss reports do the accounting, and clients and
vendors format their addresses.

The model follows the code. That includes behaviour a careful design would
avoid, and each such behaviour is stated as a lemma:

- Reserving, releasing and reducing stock from a sales line saves the row
  with `update_fields`. Only the named columns are written, so the stored
  `available_quantity` goes stale until the next full save
  (`Inventory.PartialSaveKeepsAvailable`).
- Reserving does not check availability. Every save of a line on a PENDING
  order reserves its quantity again (`Sales.ResaveReservesAgain`).
- `SalesOrder.save` compares the stored status with the new one and
  reserves, releases or reduces. As a result:
  - `mark_as_shipped` from PENDING, CONFIRMED or CANCELLED reduces every
    line twice. `mark_as_delivered` does the same from those statuses, and
    reduces nothing from SHIPPED.
  - `cancel_order` releases every line twice
    (`Sales.DoubleReduceTakesTwice`, `Sales.DoubleReleaseLosesReservation`).
- The purchase handler applies a receipt on every save of a RECEIVED order
  (`PurchaseSignals.ReceiptIsNotIdempotent`).
- The sales-signal decrement takes the quantity off the stock twice when
  the line was not reserved (`SalesSignals.UnreservedSaleTakesTwice`).
- For an order without a warehouse, validation sums `available_quantity`
  over all of the item's rows. The decrement uses only the item's first
  row, so a line can pass validation and then fail
  (`SalesSignals.ValidationCanPassWhileDecreaseFails`).
- Payment ledger entries get the default entry type OTHER, and editing a
  payment does not touch its ledger entry.

Modules:

- `Common`: `Option`, `Result`, identifiers, `Max0`.
- `Strings`: Python's `", ".join` and the filter of non-empty fields.
- `Inventory`: categories, items, `Stock` rows, partial saves, and the
  `StockTable` class.
- `StockAlerts`: `StockAlert` and the `AlertBook` class.
- `Purchases`: purchase lines and the `PurchaseOrder` class.
- `PurchaseSignals`: stock increase on receipt.
- `Sales`: sales lines, line-level stock operations and the `SalesOrder`
  class.
- `SalesSignals`: stock validation and decrement on sale.
- `Accounts`: payments, ledger, profit and loss, and the `Books` class.
- `Clients` and `Vendors`: address formatting.

Money (`Decimal`) is `real`. Quantities are `int`. Dates and times are
`int` values passed in by the caller. Every database table is a field of a
class: a `map` for stock rows, a `seq` for alerts, lines, payments, ledger
entries and reports.

## Model

| member | source | states |
|---|---|---|
| Common.Max0 | backend/sales/models.py:363-365 | the result is the larger of the value and zero: never negative, and equal to the value when that is not negative |
| Strings.Join | backend/clients/models.py:167 | joining no parts gives "" and joining one part gives that part |
| Strings.JoinSnoc | backend/clients/models.py:167 | joining one more part appends the separator and the part |
| Strings.JoinEndsWithLast | backend/clients/models.py:165-167 | a joined non-empty list ends with its last part |
| Strings.NonEmpty | backend/clients/models.py:156-166 | no more parts are kept than there are fields |
| Strings.AppendIfPresent | backend/clients/models.py:156-166 | a field's text is appended exactly when the field is neither NULL nor empty |
| Strings.NonEmptyCount | backend/clients/models.py:156-166 | the filter keeps exactly one part per present field |
| Strings.NonEmptyLast | backend/clients/models.py:165-166 | a list of fields that ends with a present field keeps that field as its last part |
| Strings.NonEmptyNone | backend/vendors/models.py:144 | with no present field, nothing is kept |
| Strings.NonEmptySameParts | backend/vendors/models.py:133-144 | fields that contribute the same parts filter to the same list |
| Strings.NonEmptyOnly | backend/vendors/models.py:133-144 | with exactly one present field, the filter keeps just that field |
| Inventory.Lineage | backend/inventory/models.py:70-74 | the names run from the root category down, ending with the category's own name |
| Inventory.FullPathIsJoinedLineage | backend/inventory/models.py:70-74 | the full path is the lineage joined by " > ": the bare name for a root category, and always ending in the category's own name |
| Inventory.Margin | backend/inventory/models.py:381-386 | the margin is 0 when the cost is not positive; otherwise selling = cost·(1 + margin/100), and the margin is positive (zero) exactly when the selling price is above (equal to) the cost |
| Inventory.Save | backend/inventory/models.py:475-478 | a save changes only `available_quantity`, which becomes quantity − reserved, or 0 when more is reserved than held; it is never negative |
| Inventory.Persist | backend/inventory/models.py:475-478 | a full save stores the recomputed row; a save with a field list keeps the row's identity and never makes the stored availability negative |
| Inventory.PartialSaveKeepsAvailable | backend/sales/models.py:335-371 | a save whose `update_fields` omit `available_quantity` leaves the stored column unchanged |
| Inventory.StockPredicates | backend/inventory/models.py:480-490 | `is_low_stock`, `is_out_of_stock` and `can_fulfill_order`: with `min_quantity` >= 0, an out-of-stock row is also a low-stock row; after a save, a row can fulfil a positive request exactly when quantity − reserved covers it |
| Inventory.NewStock | backend/purchases/signals.py:75-83 | a created row has zero quantity, zero reservation and zero availability, the given average cost, and has never been restocked |
| Inventory.ItemWarehouses | backend/sales/models.py:322-324 | a warehouse is listed exactly when it is in the warehouse listing and holds a row for the item |
| Inventory.FindStock | backend/sales/models.py:311-324 | a found row exists and is the item's; the order's warehouse row wins when it exists |
| Inventory.FindStockFallback | backend/sales/models.py:311-324 | nothing is found exactly when neither the order's warehouse nor any listed warehouse has a row; otherwise the first row in listing order is taken |
| Inventory.FindStockSameKeys | backend/sales/models.py:298-324 | which row a line works on depends only on which rows exist, not on their contents |
| Inventory.TotalQuantityAfterWrite | backend/inventory/models.py:370-379 | `TotalQuantity`: rewriting one row changes the item's total stock by exactly that row's change in quantity |
| Inventory.NoRowsNoStock | backend/inventory/models.py:370-379 | an item without rows has total stock 0 and nothing available, and is low exactly when its reorder level is not negative |
| Inventory.TotalQuantityUnaffected | backend/inventory/models.py:370-374 | a row in a warehouse outside the listing does not enter the total |
| Inventory.StockTable.Write | backend/inventory/models.py:475-478 | only the written row changes, and it becomes what the save with those fields stores |
| Inventory.StockTable.GetOrCreate | backend/purchases/signals.py:75-83 | an existing row is returned unchanged; a missing one is created as a new row; no other row changes |
| StockAlerts.PendingFor | backend/inventory/models.py:583-586 | the lookup finds the newest PENDING alert of the row, or reports that there is none |
| StockAlerts.PendingIsUnique | backend/inventory/models.py:583-586 | while a row has at most one pending alert, the lookup finds exactly that alert |
| StockAlerts.AfterCreateAlert | backend/inventory/models.py:572-617 | an existing pending alert has its current quantity refreshed in place, its minimum staying as recorded when it was created; otherwise a new pending alert is appended; either way the row then has a pending alert showing its current quantity |
| StockAlerts.CreateAlertKeepsOnePending | backend/inventory/models.py:572-617 | creating an alert never gives a row a second pending alert |
| StockAlerts.LowStockCheck | backend/purchases/signals.py:109-118 | the check (`AfterLowStockCheck`) keeps at most one pending alert per row; a low row ends up with a pending alert, and a row that is not low leaves the alerts unchanged |
| StockAlerts.AlertBook.FindPending | backend/inventory/models.py:583-586 | the scan returns the lookup's alert |
| StockAlerts.AlertBook.CreateAlert | backend/inventory/models.py:572-617 | the alerts become `AfterCreateAlert`, and the returned index holds the row's pending alert |
| StockAlerts.AlertBook.Acknowledge | backend/inventory/models.py:619-624 | only the status (ACKNOWLEDGED) and its time stamp change |
| StockAlerts.AlertBook.Resolve | backend/inventory/models.py:626-631 | only the status (RESOLVED) and its time stamp change |
| StockAlerts.AlertBook.CheckAndSendLowStockAlert | backend/sales/signals.py:179-188 | the alerts become those of the low-stock check |
| Purchases.CalculateLandedCost | backend/purchases/models.py:234-254 | only the landed columns change; per unit is unit cost + extra costs / quantity (unit cost alone for no quantity); the total is per unit × quantity, which equals line total + extra costs; with non-negative costs, the landed cost per unit is never below the unit cost |
| Purchases.Recalculate | backend/purchases/models.py:230-268 | the saved line's total is quantity × unit cost, and its landed columns are those of the landed-cost calculation |
| Purchases.RecalculateIdempotent | backend/purchases/models.py:256-268 | saving a line a second time changes nothing |
| Purchases.GetCostBreakdown | backend/purchases/models.py:270-282 | every figure is the line's own: unit cost, quantity, subtotal, freight, duty, other, landed cost per unit and in total, and the additional costs are freight + duty + other |
| Purchases.BreakdownAddsUp | backend/purchases/models.py:270-282 | for a saved line with a positive quantity, subtotal + additional costs = total landed cost |
| Purchases.PendingQuantity | backend/purchases/models.py:284-290 | the pending quantity is never negative; it is zero exactly when `is_fully_received` holds, and otherwise received + pending = ordered |
| Purchases.SumLineTotalsAppend | backend/purchases/models.py:96-103 | the order total splits over any split of the lines |
| Purchases.SumLineTotalsNonNegative | backend/purchases/models.py:96-103 | lines with non-negative totals give a non-negative order total |
| Purchases.PurchaseOrder.CalculateTotal | backend/purchases/models.py:96-103 | the stored and returned total is the sum of the line totals; nothing else changes |
| Purchases.PurchaseOrder.MarkAsReceived | backend/purchases/models.py:115-121 | an order not yet received becomes RECEIVED with today's date; a received order is left as it is |
| Purchases.PurchaseOrder.SaveLine | backend/purchases/models.py:256-268 | the line is recalculated and the order total becomes the new sum of the lines |
| Purchases.PurchaseOrder.AddLine | backend/purchases/models.py:256-268 | the recalculated line is appended and the total grows by its line total |
| PurchaseSignals.IncreasedRow | backend/purchases/signals.py:88-103 | the row gains the received quantity and a restock time; a stocked row's average cost becomes the quantity-weighted average of old average and landed cost, an empty row takes the landed cost; its reservation and minimum are unchanged, and its availability is recomputed |
| PurchaseSignals.WeightedAverageBetween | backend/purchases/signals.py:88-94 | the weighted average of a positive old quantity and a positive receipt lies between the old average and the landed cost |
| PurchaseSignals.ReceiptCostBetween | backend/purchases/signals.py:88-94 | after a positive receipt into a stocked row, the row's average cost lies between its old average and the landed cost |
| PurchaseSignals.TwoReceiptsAverage | backend/purchases/signals.py:88-94 | two receipts into an empty row leave the cost averaged over both receipts by quantity |
| PurchaseSignals.ReceiveIntoNewRow | backend/purchases/signals.py:73-103 | receiving into a warehouse without a row creates one holding exactly the received units, unreserved and all available, at the landed cost |
| PurchaseSignals.ReceiveLinesQuantity | backend/purchases/signals.py:31-106 | receiving an order (`ReceiveLine` per line) raises each row in the receiving warehouse by the positive received quantities of its item's lines; rows in other warehouses keep their quantity |
| PurchaseSignals.ReceiveLinesKeepsAlerts | backend/purchases/signals.py:43-118 | receiving keeps at most one pending alert per row |
| PurchaseSignals.ReceiptIsNotIdempotent | backend/purchases/signals.py:31-40 | handling the same RECEIVED order twice adds its received quantities twice |
| PurchaseSignals.IncreaseStockFromPurchaseItem | backend/purchases/signals.py:43-106 | the rows and alerts become those of receiving the line into the warehouse |
| PurchaseSignals.UpdateStockOnPurchaseReceived | backend/purchases/signals.py:15-28 | a line of a RECEIVED order is received into the stock; for any other order, nothing changes |
| PurchaseSignals.UpdateStockOnOrderReceived | backend/purchases/signals.py:31-40 | every line of a RECEIVED order is received in turn; for any other order, nothing changes |
| Sales.CalculateLineTotal | backend/sales/models.py:292-296 | with a non-negative quantity and price and a discount between 0 and 100, the line total lies between 0 and quantity × price; a discount above 100 on a positive subtotal gives a negative total; no discount gives quantity × price, and a 100% discount gives 0 |
| Sales.SumLineTotalsPointwise | backend/sales/models.py:122-131 | lines with equal line totals give equal sums |
| Sales.OrderTotal | backend/sales/models.py:122-131 | the total is the lines' sum less the discount, floored at 0 |
| Sales.ApplyToRow | backend/sales/models.py:335-371 | reserve adds the quantity to the reservation; release lowers it, floored at 0; reduce lowers both the reservation and the quantity, each floored at 0; nothing else about the stored row changes, `available_quantity` included |
| Sales.ApplyLines | backend/sales/models.py:143-167 | applying an operation to the order's lines never creates or drops a row |
| Sales.ReserveLinesEffect | backend/sales/models.py:335-343 | reserving all lines adds, to each row, the quantity of the lines resolving to it, and leaves its other columns alone |
| Sales.ReleaseLinesEffect | backend/sales/models.py:345-353 | when a row holds at least the quantities of the lines resolving to it, releasing subtracts exactly those quantities |
| Sales.ReleaseUndoesReserve | backend/sales/models.py:143-158 | releasing an order's lines after reserving them restores every row exactly |
| Sales.DeleteUndoesAdd | backend/sales/models.py:373-396 | deleting a line from a PENDING order undoes the reservation its save made |
| Sales.DoubleReleaseLosesReservation | backend/sales/models.py:190-215 | releasing a line twice also removes another order's reservation of the same size |
| Sales.DoubleReduceTakesTwice | backend/sales/models.py:169-215 | reducing a line twice takes twice its quantity off the row (while stock lasts) |
| Sales.ResaveReservesAgain | backend/sales/models.py:373-386 | saving a line of a PENDING order again reserves its quantity again |
| Sales.ShipLine | backend/sales/models.py:355-371 | when the line finds a stock row, its shipped quantity becomes its ordered quantity; when it finds none, the line is unchanged; nothing but the shipped quantity ever changes |
| Sales.ShipLines | backend/sales/models.py:160-167 | every line is shipped on its own |
| Sales.ShipLinesTwice | backend/sales/models.py:169-188 | shipping the lines a second time changes nothing about them |
| Sales.ShippedPrefixTotals | backend/sales/models.py:355-378 | shipping lines never changes the order's sum of line totals |
| Sales.AnyStockedSameItems | backend/sales/models.py:355-371 | whether some line finds a row depends only on which rows exist and on the lines' items |
| Sales.ShippedLinesSameTotal | backend/sales/models.py:160-188 | after shipping, a second reduction finds the same rows and recomputes the same order total |
| Sales.ApplyLinesSameItems | backend/sales/models.py:160-167 | the stock effect depends only on the lines' items and quantities |
| Sales.GetStock | backend/sales/models.py:298-324 | the warehouse passed in wins; failing that the lookup is FindStock's (the order's warehouse, then the item's first row); nothing is found exactly when none of these exist |
| Sales.CheckStockAvailability | backend/sales/models.py:326-333 | not found exactly when there is no row; in stock exactly when the row's stored availability covers the quantity; otherwise insufficient, carrying the available and required figures |
| Sales.ProfitMargin | backend/sales/models.py:398-404 | the margin is 0 when the cost is not positive; otherwise price = cost·(1 + margin/100) |
| Sales.ProfitAmount | backend/sales/models.py:406-411 | the profit is 0 when the cost is not positive; otherwise it is the line's cost scaled by the profit margin, and for a positive quantity it is positive exactly when the price exceeds the cost |
| Sales.ProfitAgreesWithMargin | backend/sales/models.py:398-411 | for a positive cost and quantity, the profit is positive exactly when the margin is, exactly when the price exceeds the cost |
| Sales.ApplyLineStock | backend/sales/models.py:335-371 | the rows become the operation applied to the line's row, and `found` says whether that row exists |
| Sales.SaveHook | backend/sales/models.py:197-215 | reserve exactly on entering PENDING, release exactly on entering CANCELLED, reduce exactly on entering SHIPPED or DELIVERED from outside those two; no operation when the status is unchanged |
| Sales.SalesOrder.CalculateTotal | backend/sales/models.py:122-131 | the stored and returned total is the order total; nothing else changes |
| Sales.SalesOrder.ReserveStock | backend/sales/models.py:143-150 | a PENDING order reserves all its lines; other orders change nothing |
| Sales.SalesOrder.ReleaseReservedStock | backend/sales/models.py:152-158 | every line's reservation is released |
| Sales.SalesOrder.SaveShipped | backend/sales/models.py:369-383 | storing a line's shipped quantity changes only that column of that line, and the order total is recalculated to the unchanged order total |
| Sales.SalesOrder.ReduceLineStock | backend/sales/models.py:355-371 | the line's row is reduced and the line is marked shipped; the order total is recomputed only when a row was found |
| Sales.SalesOrder.ReduceStock | backend/sales/models.py:160-167 | a SHIPPED or DELIVERED order reduces all its lines and marks them shipped; any other order changes nothing |
| Sales.SalesOrder.AfterSave | backend/sales/models.py:197-215 | the save hook's operation is applied to all lines; the status and dates stay as they are |
| Sales.SalesOrder.SetStatus | backend/sales/models.py:197-215 | the status is set and the stock changes by the save hook for the old and new status; a reducing hook marks the lines shipped and recomputes the total when some line found a row; otherwise lines and total stay; dates, warehouse and discount never change |
| Sales.SalesOrder.MarkAsShipped | backend/sales/models.py:169-176 | an order not yet shipped or delivered becomes SHIPPED with today's date, has its lines reduced twice and marked shipped, and its total recomputed when some line found a row; otherwise nothing changes; the order date, delivery date, warehouse and discount never change |
| Sales.SalesOrder.MarkAsDelivered | backend/sales/models.py:178-188 | DELIVERED is left alone; from SHIPPED only the status and delivery date change; from other statuses the lines are reduced twice, marked shipped, and the total recomputed when some line found a row; the order date, shipped date, warehouse and discount never change |
| Sales.SalesOrder.CancelOrder | backend/sales/models.py:190-195 | an order not yet cancelled becomes CANCELLED and releases its lines twice; a cancelled one is left alone; lines, total, dates, warehouse and discount never change |
| Sales.SalesOrder.SaveLine | backend/sales/models.py:373-386 | the line is stored with its recomputed total, the order total is recomputed, and a PENDING order reserves the line's quantity; status, warehouse, discount and dates never change |
| Sales.SalesOrder.AddLine | backend/sales/models.py:373-386 | as for saving, with the line appended; status, warehouse, discount and dates never change |
| Sales.SalesOrder.DeleteLine | backend/sales/models.py:388-396 | a PENDING order releases the line's reservation; the line is removed and the total recomputed; status, warehouse, discount and dates never change |
| SalesSignals.ValidateStockAvailability | backend/sales/signals.py:37-83 | with a warehouse, the line passes exactly when that warehouse's row has enough stored availability, and a missing row is reported as such; without a warehouse, it passes exactly when the availability summed over all rows covers the quantity |
| SalesSignals.ValidateStockBeforeSale | backend/sales/signals.py:15-34 | a line whose quantity and status are unchanged, or one in a CANCELLED order, passes; otherwise the outcome is that of the availability check |
| SalesSignals.SaleRow | backend/sales/signals.py:127-145 | the order's warehouse row when the order has a warehouse, otherwise the item's first row; each failure carries its own error |
| SalesSignals.DecreasedRow | backend/sales/signals.py:154-173 | the reservation covers the sale first; the quantity loses the uncovered part and then the whole line quantity, clamped at 0; availability is recomputed |
| SalesSignals.ReservedSaleTakesOnce | backend/sales/signals.py:156-166 | a sale covered by its reservation takes its quantity off the stock once |
| SalesSignals.UnreservedSaleTakesTwice | backend/sales/signals.py:159-166 | a sale with nothing reserved takes its quantity off the stock twice |
| SalesSignals.PartlyReservedSale | backend/sales/signals.py:156-166 | a partly reserved sale uses up the reservation and takes 2q − reserved off the stock, or empties it |
| SalesSignals.DecreaseLine | backend/sales/signals.py:113-176 | a non-positive quantity changes nothing; on success the found row becomes DecreasedRow, the alerts are low-stock checked against it and the line is marked shipped in full; on failure the error is SaleRow's when no row is found and InsufficientStock with the stored available quantity otherwise; no row is created or dropped |
| SalesSignals.DecreaseAgreesWithValidation | backend/sales/signals.py:37-152 | for an order with a warehouse, the decrement succeeds exactly when validation passes |
| SalesSignals.ValidationCanPassWhileDecreaseFails | backend/sales/signals.py:37-152 | for an order without a warehouse, a line can pass validation on the summed availability and still be rejected by the decrement on the first row |
| SalesSignals.DecreaseKeepsAlerts | backend/sales/signals.py:173-188 | a decrement keeps at most one pending alert per row |
| SalesSignals.DecreaseLines | backend/sales/signals.py:107-110 | one result line per order line |
| SalesSignals.DecreaseLinesKeepsLines | backend/sales/signals.py:107-170 | the run changes only the lines' shipped quantities |
| SalesSignals.PartialRunTotal | backend/sales/signals.py:168-170 | part-way through the run, the order total of the stored lines is the original order total |
| SalesSignals.FailureStopsRun | backend/sales/signals.py:107-152 | a failing line ends the run with its error: the state stays as it was before that line, and that line and the ones after it are left as they are |
| SalesSignals.DecreaseLinesStops | backend/sales/signals.py:107-110 | after the first failing line, the remaining lines are left as they are |
| SalesSignals.DecreaseLinesKeepsQuantities | backend/sales/signals.py:107-176 | decrements never create or drop rows, and never make a quantity negative |
| SalesSignals.DecreaseStockFromSalesItem | backend/sales/signals.py:113-176 | the rows and alerts become those of the decrement; on an error nothing changes |
| SalesSignals.DecreaseStockOnSale | backend/sales/signals.py:86-99 | a line of a SHIPPED or DELIVERED order is decremented, and for a positive quantity its save recomputes the order total; on an error, or for any other order, nothing changes |
| SalesSignals.UpdateStockOnOrderStatusChange | backend/sales/signals.py:102-110 | every line of a SHIPPED or DELIVERED order is decremented in turn, stopping at the first error; once a line with a positive quantity is saved the order total is recomputed, from unchanged line totals; for any other order nothing changes |
| Accounts.FullClean | backend/accounts/models.py:137-153 | an amount below 0.01, a payment with neither vendor nor client, and one with both are each reported; the payment is valid exactly when none applies |
| Accounts.EntryForPayment | backend/accounts/models.py:155-165 | a DEBIT payment debits its amount and a CREDIT payment credits it, with the other side 0, on the payment's date |
| Accounts.EntryForSale | backend/accounts/models.py:279-290 | a sales entry credits the order total on the order date |
| Accounts.EntryForPurchase | backend/accounts/models.py:292-303 | a purchase entry debits the order total on the order date |
| Accounts.LedgerTotalsAppend | backend/accounts/models.py:252-277 | total debits, total credits and the balance each add up over any split of the ledger |
| Accounts.BalanceAfterPayment | backend/accounts/models.py:252-277 | recording a payment moves the balance of any range containing its date up by a credit and down by a debit; a range without its date is unchanged |
| Accounts.PaymentsMatchLedger | backend/accounts/models.py:393-398 | the period's expenses (DEBIT payments) equal the ledger debits of the payments' entries, and the CREDIT payments equal their credits |
| Accounts.CalculateProfitLoss | backend/accounts/models.py:368-412 | revenue sums SHIPPED and DELIVERED sales, the cost of goods sums RECEIVED purchases, expenses sum DEBIT payments, all dated within the period; gross = revenue − cost, and net = gross − expenses |
| Accounts.RevenueAppend | backend/accounts/models.py:380-384 | revenue adds up over any split of the sales orders |
| Accounts.CostOfGoodsSoldAppend | backend/accounts/models.py:386-391 | the cost of goods sold adds up over any split of the purchase orders |
| Accounts.ExpensesAppend | backend/accounts/models.py:393-398 | expenses add up over any split of the payments |
| Accounts.UnshippedSaleEarnsNothing | backend/accounts/models.py:380-384 | a sales order that is neither shipped nor delivered adds nothing to revenue |
| Accounts.EmptyPeriod | backend/accounts/models.py:378-404 | a period that ends before it starts has zero net profit |
| Accounts.EmptyPeriodRevenue | backend/accounts/models.py:380-384 | a period that ends before it starts has zero revenue |
| Accounts.EmptyPeriodCosts | backend/accounts/models.py:386-391 | a period that ends before it starts has zero cost of goods |
| Accounts.EmptyPeriodExpenses | backend/accounts/models.py:393-398 | a period that ends before it starts has zero expenses |
| Accounts.Books.CreatePayment | backend/accounts/models.py:145-165 | a valid new payment is stored with its ledger entry; an invalid one stores nothing and reports its errors |
| Accounts.Books.UpdatePayment | backend/accounts/models.py:145-153 | a valid edit replaces the payment and leaves the ledger as it was |
| Accounts.Books.OnSalesOrderSaved | backend/accounts/models.py:431-435 | an entry is added only for a sales order created SHIPPED or DELIVERED |
| Accounts.Books.OnPurchaseOrderSaved | backend/accounts/models.py:437-441 | an entry is added only for a purchase order created RECEIVED |
| Accounts.Books.CreateReport | backend/accounts/models.py:414-424 | the period's freshly computed report replaces the stored one or is appended; periods stay unique and other reports are untouched |
| Clients.GetFullAddress | backend/clients/models.py:154-167 | the non-empty ones of address, city, state, postal code and country, in that order, joined by ", " |
| Clients.GetLocation | backend/clients/models.py:169-176 | the non-empty ones of city and country joined by ", " |
| Clients.FullAddressParts | backend/clients/models.py:154-167 | one part per non-empty field, and "" when all are empty |
| Clients.EndsWithCountry | backend/clients/models.py:165-175 | a non-empty country ends both the full address and the location |
| Clients.LocationCases | backend/clients/models.py:169-176 | the location is "" exactly when city and country are both empty, and "city, country" when both are filled in |
| Vendors.GetFullAddress | backend/vendors/models.py:131-144 | the non-empty ones of address, city, state, postal code and country, in that order, joined by ", " |
| Vendors.NullIsBlank | backend/vendors/models.py:44-67 | a NULL address, city, state or postal code formats exactly like an empty one |
| Vendors.SingleField | backend/vendors/models.py:133-144 | with exactly one non-empty field, the address is that field unchanged |
| Vendors.EndsWithCountry | backend/vendors/models.py:142-143 | a non-empty country is the last segment |

## Left out

- REST viewsets, serializers, URL routing and admin classes are not modelled. The model covers what they call.
- The ORM is replaced by in-memory maps and sequences. This covers querysets, `aggregate`, `get_or_create`, `update_or_create` and transactions.
- Concurrency and row locking are out of scope. The model is sequential, so the read-check-write race on `available_quantity` is not represented.
- Django signal dispatch is not composed with saves. Each handler is a method of its own. The model therefore does not capture:
  - the decrement handler re-entering itself through the line save it makes
  - a stock save firing the order and line handlers in turn
  The line save in `decrease_stock_from_sales_item` (backend/sales/signals.py:169-170) comes before the stock save (:173), so with the handlers registered it fires the decrement again on the still unsaved row, with no bound in the code itself. The stock counts stated here for `mark_as_shipped`, `mark_as_delivered` and the decrement are therefore those of each call taken alone, with dispatch removed, and not necessarily those of the running program.
- The status an order holds in memory is assumed to equal its stored status. This is how the order methods use it.
- Clock readings (`timezone.now()`) are parameters.
- Notification sending and message texts are not modelled. Errors are datatype values.
- The receiving warehouse is a parameter. The source picks the first active warehouse and creates a "Default Warehouse" when there is none.
- Decimal columns are exact `real` values. Quantisation to two places and rounding of margins are not modelled.
- `max_quantity`, payment methods, descriptions, references, and the other informational columns are not modelled.
- Item totals use the model's warehouse listing in place of a database aggregate.
- `Sales.SalesOrder.MarkAsShipped`, `MarkAsDelivered` and `CancelOrder`: the order-level decrement handler that would also run on those saves is a separate method (`SalesSignals.UpdateStockOnOrderStatusChange`) and is not called by them.
- `Accounts.Books.OnSalesOrderSaved` and `OnPurchaseOrderSaved`: the `created` flag is a parameter.

=== FILE: accounts.dfy ===
/** Payments, the ledger and profit-and-loss reports
    (backend/accounts/models.py). */
module Accounts {
  import opened Common
  import Sales
  import Purchases

  datatype PaymentType = Credit | Debit

  /** A `Payment`; exactly one of `vendor` and `client` is expected. */
  datatype Payment = Payment(
    vendor: Option<VendorId>,
    client: Option<ClientId>,
    amount: real,
    paymentType: PaymentType,
    date: Date)

  datatype PaymentError = AmountTooSmall | NoParty | BothParties

  /** The smallest amount the `amount` field's validator accepts. */
  const MIN_PAYMENT_AMOUNT: real := 0.01

  /** `Payment.full_clean` as `Payment.save` runs it: the amount validator
      and `Payment.clean` both run and their errors are collected. */
  function FullClean(p: Payment): (errors: set<PaymentError>)
    ensures AmountTooSmall in errors <==> p.amount < MIN_PAYMENT_AMOUNT
    ensures NoParty in errors <==> p.vendor.None? && p.client.None?
    ensures BothParties in errors <==> p.vendor.Some? && p.client.Some?
    ensures errors == {} <==> p.amount >= MIN_PAYMENT_AMOUNT && (p.vendor.Some? != p.client.Some?)
  {
    (if p.amount < MIN_PAYMENT_AMOUNT then {AmountTooSmall} else {}) +
    (if p.vendor.None? && p.client.None? then {NoParty} else {}) +
    (if p.vendor.Some? && p.client.Some? then {BothParties} else {})
  }

  datatype EntryType = PaymentEntry | SalesEntry | PurchaseEntry | Adjustment | OtherEntry
  datatype ReferenceType = PaymentRef | SalesOrderRef | PurchaseOrderRef | NoReference

  datatype LedgerEntry = LedgerEntry(
    date: Date,
    debitAmount: real,
    creditAmount: real,
    entryType: EntryType,
    referenceType: ReferenceType)

  /** `Payment.create_ledger_entry`: a DEBIT payment is a debit of its amount,
      a CREDIT payment a credit; the entry type is left at its default. */
  function EntryForPayment(p: Payment): (e: LedgerEntry)
    ensures e.date == p.date && e.referenceType == PaymentRef && e.entryType == OtherEntry
    ensures e.debitAmount + e.creditAmount == p.amount
    ensures p.paymentType == Debit ==> e.creditAmount == 0.0
    ensures p.paymentType == Credit ==> e.debitAmount == 0.0
  {
    LedgerEntry(p.date,
      if p.paymentType == Debit then p.amount else 0.0,
      if p.paymentType == Credit then p.amount else 0.0,
      OtherEntry, PaymentRef)
  }

  /** `LedgerEntry.create_sales_entry`: the order total as a credit. */
  function EntryForSale(o: Sales.SalesRecord): (e: LedgerEntry)
    ensures e.date == o.orderDate && e.creditAmount == o.totalAmount && e.debitAmount == 0.0
    ensures e.entryType == SalesEntry && e.referenceType == SalesOrderRef
  {
    LedgerEntry(o.orderDate, 0.0, o.totalAmount, SalesEntry, SalesOrderRef)
  }

  /** `LedgerEntry.create_purchase_entry`: the order total as a debit. */
  function EntryForPurchase(o: Purchases.PurchaseRecord): (e: LedgerEntry)
    ensures e.date == o.orderDate && e.debitAmount == o.totalAmount && e.creditAmount == 0.0
    ensures e.entryType == PurchaseEntry && e.referenceType == PurchaseOrderRef
  {
    LedgerEntry(o.orderDate, o.totalAmount, 0.0, PurchaseEntry, PurchaseOrderRef)
  }

  /** The optional date bounds of the ledger totals, both inclusive. */
  predicate InRange(d: Date, start: Option<Date>, end: Option<Date>) {
    (start.None? || start.value <= d) && (end.None? || d <= end.value)
  }

  /** `LedgerEntry.get_total_debits`. */
  function TotalDebits(entries: seq<LedgerEntry>, start: Option<Date>, end: Option<Date>): real {
    if entries == [] then 0.0
    else
      var e := entries[|entries| - 1];
      TotalDebits(entries[..|entries| - 1], start, end) + (if InRange(e.date, start, end) then e.debitAmount else 0.0)
  }

  /** `LedgerEntry.get_total_credits`. */
  function TotalCredits(entries: seq<LedgerEntry>, start: Option<Date>, end: Option<Date>): real {
    if entries == [] then 0.0
    else
      var e := entries[|entries| - 1];
      TotalCredits(entries[..|entries| - 1], start, end) + (if InRange(e.date, start, end) then e.creditAmount else 0.0)
  }

  /** `LedgerEntry.get_balance`: credits less debits. */
  function Balance(entries: seq<LedgerEntry>, start: Option<Date>, end: Option<Date>): real {
    TotalCredits(entries, start, end) - TotalDebits(entries, start, end)
  }

  /** Recording a payment moves the balance of any range that contains its
      date by its amount: up for a CREDIT, down for a DEBIT. */
  lemma BalanceAfterPayment(entries: seq<LedgerEntry>, p: Payment, start: Option<Date>, end: Option<Date>)
    ensures var after := Balance(entries + [EntryForPayment(p)], start, end);
      && (!InRange(p.date, start, end) ==> after == Balance(entries, start, end))
      && (InRange(p.date, start, end) && p.paymentType == Credit ==> after == Balance(entries, start, end) + p.amount)
      && (InRange(p.date, start, end) && p.paymentType == Debit ==> after == Balance(entries, start, end) - p.amount)
  {
    assert (entries + [EntryForPayment(p)])[..|entries|] == entries;
  }

  /** The ledger totals add up over any split of the entries, so they do
      not depend on how the table is ordered or batched. */
  lemma {:induction false} LedgerTotalsAppend(a: seq<LedgerEntry>, b: seq<LedgerEntry>, start: Option<Date>, end: Option<Date>)
    ensures TotalDebits(a + b, start, end) == TotalDebits(a, start, end) + TotalDebits(b, start, end)
    ensures TotalCredits(a + b, start, end) == TotalCredits(a, start, end) + TotalCredits(b, start, end)
    ensures Balance(a + b, start, end) == Balance(a, start, end) + Balance(b, start, end)
  {
    if b == [] {
      assert a + b == a;
    } else {
      var init := b[..|b| - 1];
      LedgerTotalsAppend(a, init, start, end);
      assert (a + b)[..|a + b| - 1] == a + init;
    }
  }

  /** The ledger entries the payments created, in order. */
  function EntriesFor(payments: seq<Payment>): (r: seq<LedgerEntry>)
    ensures |r| == |payments|
  {
    if payments == [] then [] else EntriesFor(payments[..|payments| - 1]) + [EntryForPayment(payments[|payments| - 1])]
  }

  // ---------------------------------------------------------------------
  // Profit and loss
  // ---------------------------------------------------------------------

  predicate InPeriod(d: Date, start: Date, end: Date) {
    start <= d <= end
  }

  /** Revenue: totals of SHIPPED and DELIVERED sales orders dated in the period. */
  function Revenue(sales: seq<Sales.SalesRecord>, start: Date, end: Date): real {
    if sales == [] then 0.0
    else
      var o := sales[|sales| - 1];
      Revenue(sales[..|sales| - 1], start, end) +
      (if InPeriod(o.orderDate, start, end) && (o.status == Sales.Shipped || o.status == Sales.Delivered) then o.totalAmount else 0.0)
  }

  /** Cost of goods sold: totals of RECEIVED purchase orders dated in the period. */
  function CostOfGoodsSold(purchases: seq<Purchases.PurchaseRecord>, start: Date, end: Date): real {
    if purchases == [] then 0.0
    else
      var o := purchases[|purchases| - 1];
      CostOfGoodsSold(purchases[..|purchases| - 1], start, end) +
      (if InPeriod(o.orderDate, start, end) && o.status == Purchases.Received then o.totalAmount else 0.0)
  }

  /** Expenses: amounts of DEBIT payments dated in the period. */
  function Expenses(payments: seq<Payment>, start: Date, end: Date): real {
    if payments == [] then 0.0
    else
      var p := payments[|payments| - 1];
      Expenses(payments[..|payments| - 1], start, end) +
      (if InPeriod(p.date, start, end) && p.paymentType == Debit then p.amount else 0.0)
  }

  /** Income: amounts of CREDIT payments dated in the period. */
  function Income(payments: seq<Payment>, start: Date, end: Date): real {
    if payments == [] then 0.0
    else
      var p := payments[|payments| - 1];
      Income(payments[..|payments| - 1], start, end) +
      (if InPeriod(p.date, start, end) && p.paymentType == Credit then p.amount else 0.0)
  }

  /** The payments' expenses are the debits, and their income the credits,
      of the ledger entries they created over the same period. */
  lemma {:induction false} PaymentsMatchLedger(payments: seq<Payment>, start: Date, end: Date)
    ensures Expenses(payments, start, end) == TotalDebits(EntriesFor(payments), Some(start), Some(end))
    ensures Income(payments, start, end) == TotalCredits(EntriesFor(payments), Some(start), Some(end))
  {
    if payments != [] {
      var prefix := payments[..|payments| - 1];
      PaymentsMatchLedger(prefix, start, end);
      var es := EntriesFor(payments);
      assert es[..|es| - 1] == EntriesFor(prefix);
    }
  }

  datatype ProfitLoss = ProfitLoss(
    periodStart: Date,
    periodEnd: Date,
    totalRevenue: real,
    totalCostOfGoodsSold: real,
    totalExpenses: real,
    grossProfit: real,
    netProfit: real)

  /** `ProfitLoss.calculate_profit_loss` over the stored orders and payments. */
  function CalculateProfitLoss(sales: seq<Sales.SalesRecord>, purchases: seq<Purchases.PurchaseRecord>,
                               payments: seq<Payment>, start: Date, end: Date): (r: ProfitLoss)
    ensures r.periodStart == start && r.periodEnd == end
    ensures r.totalRevenue == Revenue(sales, start, end)
    ensures r.totalCostOfGoodsSold == CostOfGoodsSold(purchases, start, end)
    ensures r.totalExpenses == Expenses(payments, start, end)
    ensures r.grossProfit == r.totalRevenue - r.totalCostOfGoodsSold
    ensures r.netProfit == r.totalRevenue - r.totalCostOfGoodsSold - r.totalExpenses
  {
    var revenue := Revenue(sales, start, end);
    var cogs := CostOfGoodsSold(purchases, start, end);
    var expenses := Expenses(payments, start, end);
    var gross := revenue - cogs;
    ProfitLoss(start, end, revenue, cogs, expenses, gross, gross - expenses)
  }

  /** An order that is not shipped or delivered adds nothing to revenue. */
  lemma {:induction false} UnshippedSaleEarnsNothing(sales: seq<Sales.SalesRecord>, o: Sales.SalesRecord, start: Date, end: Date)
    requires o.status != Sales.Shipped && o.status != Sales.Delivered
    ensures Revenue(sales + [o], start, end) == Revenue(sales, start, end)
  {
    assert (sales + [o])[..|sales|] == sales;
  }

  /** Revenue adds up over any split of the sales orders. */
  lemma {:induction false} RevenueAppend(a: seq<Sales.SalesRecord>, b: seq<Sales.SalesRecord>, start: Date, end: Date)
    ensures Revenue(a + b, start, end) == Revenue(a, start, end) + Revenue(b, start, end)
  {
    if b == [] {
      assert a + b == a;
    } else {
      RevenueAppend(a, b[..|b| - 1], start, end);
      assert (a + b)[..|a + b| - 1] == a + b[..|b| - 1];
    }
  }

  /** The cost of goods sold adds up over any split of the purchase orders. */
  lemma {:induction false} CostOfGoodsSoldAppend(a: seq<Purchases.PurchaseRecord>, b: seq<Purchases.PurchaseRecord>, start: Date, end: Date)
    ensures CostOfGoodsSold(a + b, start, end) == CostOfGoodsSold(a, start, end) + CostOfGoodsSold(b, start, end)
  {
    if b == [] {
      assert a + b == a;
    } else {
      CostOfGoodsSoldAppend(a, b[..|b| - 1], start, end);
      assert (a + b)[..|a + b| - 1] == a + b[..|b| - 1];
    }
  }

  /** Expenses add up over any split of the payments. */
  lemma {:induction false} ExpensesAppend(a: seq<Payment>, b: seq<Payment>, start: Date, end: Date)
    ensures Expenses(a + b, start, end) == Expenses(a, start, end) + Expenses(b, start, end)
  {
    if b == [] {
      assert a + b == a;
    } else {
      ExpensesAppend(a, b[..|b| - 1], start, end);
      assert (a + b)[..|a + b| - 1] == a + b[..|b| - 1];
    }
  }

  /** A period that ends before it starts has nothing in it. */
  lemma {:induction false} EmptyPeriod(sales: seq<Sales.SalesRecord>, purchases: seq<Purchases.PurchaseRecord>,
                                       payments: seq<Payment>, start: Date, end: Date)
    requires end < start
    ensures CalculateProfitLoss(sales, purchases, payments, start, end).netProfit == 0.0
  {
    EmptyPeriodRevenue(sales, start, end);
    EmptyPeriodCosts(purchases, start, end);
    EmptyPeriodExpenses(payments, start, end);
  }

  lemma {:induction false} EmptyPeriodRevenue(sales: seq<Sales.SalesRecord>, start: Date, end: Date)
    requires end < start
    ensures Revenue(sales, start, end) == 0.0
  {
    if sales != [] {
      EmptyPeriodRevenue(sales[..|sales| - 1], start, end);
    }
  }

  lemma {:induction false} EmptyPeriodCosts(purchases: seq<Purchases.PurchaseRecord>, start: Date, end: Date)
    requires end < start
    ensures CostOfGoodsSold(purchases, start, end) == 0.0
  {
    if purchases != [] {
      EmptyPeriodCosts(purchases[..|purchases| - 1], start, end);
    }
  }

  lemma {:induction false} EmptyPeriodExpenses(payments: seq<Payment>, start: Date, end: Date)
    requires end < start
    ensures Expenses(payments, start, end) == 0.0
  {
    if payments != [] {
      EmptyPeriodExpenses(payments[..|payments| - 1], start, end);
    }
  }

  /** No two reports cover the same period (the `unique_together` constraint). */
  ghost predicate UniquePeriods(reports: seq<ProfitLoss>) {
    forall i, j | 0 <= i < j < |reports| ::
      reports[i].periodStart != reports[j].periodStart || reports[i].periodEnd != reports[j].periodEnd
  }

  predicate IsPeriod(r: ProfitLoss, start: Date, end: Date) {
    r.periodStart == start && r.periodEnd == end
  }

  /** The stored payments, ledger entries and reports. */
  class Books {
    var payments: seq<Payment>
    var entries: seq<LedgerEntry>
    var reports: seq<ProfitLoss>

    ghost predicate Valid()
      reads this
    {
      UniquePeriods(reports)
    }

    constructor ()
      ensures Valid() && payments == [] && entries == [] && reports == []
    {
      payments := [];
      entries := [];
      reports := [];
    }

    /** `Payment.save` for a new payment: it is validated first and, when
        valid, stored together with its ledger entry. */
    method CreatePayment(p: Payment) returns (errors: set<PaymentError>)
      modifies this
      ensures errors == FullClean(p)
      ensures errors == {} ==> payments == old(payments) + [p] && entries == old(entries) + [EntryForPayment(p)]
      ensures errors != {} ==> payments == old(payments) && entries == old(entries)
      ensures reports == old(reports)
    {
      errors := FullClean(p);
      if errors == {} {
        payments := payments + [p];
        entries := entries + [EntryForPayment(p)];
      }
    }

    /** `Payment.save` for the stored payment `i`: it is validated again and
        stored, but its ledger entry is not touched. */
    method UpdatePayment(i: nat, p: Payment) returns (errors: set<PaymentError>)
      requires i < |payments|
      modifies this
      ensures errors == FullClean(p)
      ensures errors == {} ==> payments == old(payments)[i := p]
      ensures errors != {} ==> payments == old(payments)
      ensures entries == old(entries) && reports == old(reports)
    {
      errors := FullClean(p);
      if errors == {} {
        payments := payments[i := p];
      }
    }

    /** `create_sales_ledger_entry`: a sales order created already SHIPPED
        or DELIVERED gets a credit entry for its total; later saves add none. */
    method OnSalesOrderSaved(o: Sales.SalesRecord, created: bool)
      modifies this
      ensures created && (o.status == Sales.Shipped || o.status == Sales.Delivered) ==>
        entries == old(entries) + [EntryForSale(o)]
      ensures !(created && (o.status == Sales.Shipped || o.status == Sales.Delivered)) ==> entries == old(entries)
      ensures payments == old(payments) && reports == old(reports)
    {
      if created && (o.status == Sales.Shipped || o.status == Sales.Delivered) {
        entries := entries + [EntryForSale(o)];
      }
    }

    /** `create_purchase_ledger_entry`: a purchase order created already
        RECEIVED gets a debit entry for its total; later saves add none. */
    method OnPurchaseOrderSaved(o: Purchases.PurchaseRecord, created: bool)
      modifies this
      ensures created && o.status == Purchases.Received ==> entries == old(entries) + [EntryForPurchase(o)]
      ensures !(created && o.status == Purchases.Received) ==> entries == old(entries)
      ensures payments == old(payments) && reports == old(reports)
    {
      if created && o.status == Purchases.Received {
        entries := entries + [EntryForPurchase(o)];
      }
    }

    /** `ProfitLoss.create_report`: the figures for the period replace those
        of the stored report for the same period, or are stored as a new
        report; either way there is then exactly one report for the period. */
    method CreateReport(sales: seq<Sales.SalesRecord>, purchases: seq<Purchases.PurchaseRecord>, start: Date, end: Date)
      returns (report: ProfitLoss)
      requires Valid()
      modifies this
      ensures Valid()
      ensures report == CalculateProfitLoss(sales, purchases, payments, start, end)
      ensures payments == old(payments) && entries == old(entries)
      ensures report in reports
      ensures forall j | 0 <= j < |reports| && IsPeriod(reports[j], start, end) :: reports[j] == report
      ensures (exists j | 0 <= j < |old(reports)| :: IsPeriod(old(reports)[j], start, end)) ==> |reports| == |old(reports)|
      ensures (forall j | 0 <= j < |old(reports)| :: !IsPeriod(old(reports)[j], start, end)) ==> reports == old(reports) + [report]
      ensures forall j | 0 <= j < |old(reports)| && !IsPeriod(old(reports)[j], start, end) :: reports[j] == old(reports)[j]
    {
      report := CalculateProfitLoss(sales, purchases, payments, start, end);
      var i := 0;
      while i < |reports| && !IsPeriod(reports[i], start, end)
        invariant 0 <= i <= |reports|
        invariant forall j | 0 <= j < i :: !IsPeriod(reports[j], start, end)
      {
        i := i + 1;
      }
      if i < |reports| {
        reports := reports[i := report];
        assert reports[i] == report;
      } else {
        reports := reports + [report];
        assert reports[|reports| - 1] == report;
      }
    }
  }
}

=== FILE: alerts.dfy ===
/** Low-stock alerts (`StockAlert` in backend/inventory/models.py) and the
    low-stock check both signal modules run after a stock change. */
module StockAlerts {
  import opened Common
  import opened Inventory

  datatype AlertStatus = Pending | Acknowledged | Resolved

  /** One stored alert; `stock` is the row it is about, `item` and `warehouse`
      and `minQuantity` are snapshots taken when it was created. The alert
      message text is not modelled. */
  datatype Alert = Alert(
    stock: Key,
    item: ItemId,
    warehouse: WarehouseId,
    currentQuantity: int,
    minQuantity: int,
    status: AlertStatus,
    acknowledgedAt: Option<Time>,
    resolvedAt: Option<Time>)

  /** The stored stock rows together with the stored alerts: the state the
      stock-changing signal handlers work on. */
  datatype StockState = StockState(rows: map<Key, Stock>, alerts: seq<Alert>)

  predicate IsPendingFor(a: Alert, k: Key) {
    a.stock == k && a.status == Pending
  }

  /** The alert `create_alert` looks up: the newest PENDING alert of the row
      (alerts are kept oldest first, and the lookup orders by `-created_at`). */
  function PendingFor(alerts: seq<Alert>, k: Key): (r: Option<nat>)
    ensures r.Some? ==> r.value < |alerts| && IsPendingFor(alerts[r.value], k)
    ensures r.Some? ==> forall j | r.value < j < |alerts| :: !IsPendingFor(alerts[j], k)
    ensures r.None? ==> forall j | 0 <= j < |alerts| :: !IsPendingFor(alerts[j], k)
  {
    if alerts == [] then None
    else if IsPendingFor(alerts[|alerts| - 1], k) then Some(|alerts| - 1)
    else PendingFor(alerts[..|alerts| - 1], k)
  }

  /** No stock row has two PENDING alerts. */
  ghost predicate AtMostOnePending(alerts: seq<Alert>) {
    forall i, j | 0 <= i < j < |alerts| && alerts[i].status == Pending && alerts[j].status == Pending ::
      alerts[i].stock != alerts[j].stock
  }

  /** While at most one alert per row is pending, the one the lookup finds is
      the only pending alert of the row, so the lookup order does not matter. */
  lemma PendingIsUnique(alerts: seq<Alert>, k: Key, j: nat)
    requires AtMostOnePending(alerts)
    requires j < |alerts| && IsPendingFor(alerts[j], k)
    ensures PendingFor(alerts, k) == Some(j)
  {
  }

  /** The alert `create_alert` inserts: PENDING, snapshotting the row. */
  function NewAlert(s: Stock): Alert {
    Alert(s.Key(), s.item, s.warehouse, s.quantity, s.minQuantity, Pending, None, None)
  }

  /** The alert table after `StockAlert.create_alert(s)`: the row's pending
      alert gets its `current_quantity` refreshed, or a new pending alert is
      appended when the row has none. */
  function AfterCreateAlert(alerts: seq<Alert>, s: Stock): (r: seq<Alert>)
    ensures PendingFor(alerts, s.Key()).Some? ==>
      |r| == |alerts|
      && var i := PendingFor(alerts, s.Key()).value;
         r[i] == alerts[i].(currentQuantity := s.quantity)
         && forall j | 0 <= j < |alerts| && j != i :: r[j] == alerts[j]
    ensures PendingFor(alerts, s.Key()).None? ==>
      |r| == |alerts| + 1 && r[..|alerts|] == alerts
      && var a := r[|alerts|];
         a.stock == s.Key() && a.item == s.item && a.warehouse == s.warehouse
         && a.currentQuantity == s.quantity && a.minQuantity == s.minQuantity && a.status == Pending
         && a.acknowledgedAt.None? && a.resolvedAt.None?
    ensures PendingFor(r, s.Key()).Some? && r[PendingFor(r, s.Key()).value].currentQuantity == s.quantity
  {
    match PendingFor(alerts, s.Key())
    case Some(i) => alerts[i := alerts[i].(currentQuantity := s.quantity)]
    case None => alerts + [NewAlert(s)]
  }

  /** `create_alert` never adds a second pending alert for a row. */
  lemma CreateAlertKeepsOnePending(alerts: seq<Alert>, s: Stock)
    requires AtMostOnePending(alerts)
    ensures AtMostOnePending(AfterCreateAlert(alerts, s))
  {
    var r := AfterCreateAlert(alerts, s);
    if PendingFor(alerts, s.Key()).None? {
      forall i, j | 0 <= i < j < |r| && r[i].status == Pending && r[j].status == Pending
        ensures r[i].stock != r[j].stock
      {
        if j == |alerts| {
          assert r[i] == alerts[i];
          assert !IsPendingFor(alerts[i], s.Key());
        } else {
          assert r[i] == alerts[i] && r[j] == alerts[j];
        }
      }
    }
  }

  /** The alert table after `check_and_send_low_stock_alert(s)`. */
  function AfterLowStockCheck(alerts: seq<Alert>, s: Stock): seq<Alert> {
    if IsLowStock(s) then AfterCreateAlert(alerts, s) else alerts
  }

  /** An alert is requested iff the row is low: afterwards a low row has a
      pending alert carrying its quantity, and a row above its minimum leaves
      the table alone. */
  lemma LowStockCheck(alerts: seq<Alert>, s: Stock)
    requires AtMostOnePending(alerts)
    ensures AtMostOnePending(AfterLowStockCheck(alerts, s))
    ensures IsLowStock(s) ==>
      var r := AfterLowStockCheck(alerts, s);
      PendingFor(r, s.Key()).Some? && r[PendingFor(r, s.Key()).value].currentQuantity == s.quantity
    ensures !IsLowStock(s) ==> AfterLowStockCheck(alerts, s) == alerts
  {
    if IsLowStock(s) {
      CreateAlertKeepsOnePending(alerts, s);
    }
  }

  /** The `StockAlert` table. */
  class AlertBook {
    var alerts: seq<Alert>

    ghost predicate Valid()
      reads this
    {
      AtMostOnePending(alerts)
    }

    constructor ()
      ensures Valid() && alerts == []
    {
      alerts := [];
    }

    /** `StockAlert.objects.filter(stock=k, alert_status='PENDING').first()`. */
    method FindPending(k: Key) returns (r: Option<nat>)
      ensures r == PendingFor(alerts, k)
    {
      var i := |alerts|;
      while i > 0
        invariant 0 <= i <= |alerts|
        invariant PendingFor(alerts, k) == PendingFor(alerts[..i], k)
      {
        assert alerts[..i][..i - 1] == alerts[..i - 1];
        if IsPendingFor(alerts[i - 1], k) {
          return Some(i - 1);
        }
        i := i - 1;
      }
      return None;
    }

    /** `StockAlert.create_alert(s)`; returns the position of the row's pending alert. */
    method CreateAlert(s: Stock) returns (idx: nat)
      requires Valid()
      modifies this
      ensures Valid()
      ensures alerts == AfterCreateAlert(old(alerts), s)
      ensures idx < |alerts| && IsPendingFor(alerts[idx], s.Key()) && alerts[idx].currentQuantity == s.quantity
    {
      ghost var before := alerts;
      CreateAlertKeepsOnePending(before, s);
      var found := FindPending(s.Key());
      if found.Some? {
        idx := found.value;
        assert AfterCreateAlert(before, s) == before[idx := before[idx].(currentQuantity := s.quantity)];
        if alerts[idx].currentQuantity != s.quantity {
          alerts := alerts[idx := alerts[idx].(currentQuantity := s.quantity)];
        } else {
          // refreshing a quantity that is already current rewrites nothing
          assert before[idx].(currentQuantity := s.quantity) == before[idx];
          assert before[idx := before[idx]] == before;
        }
      } else {
        alerts := alerts + [NewAlert(s)];
        idx := |alerts| - 1;
        assert AfterCreateAlert(before, s) == alerts;
      }
    }

    /** `StockAlert.acknowledge`: status ACKNOWLEDGED and its time stamp, nothing else. */
    method Acknowledge(i: nat, now: Time)
      requires Valid() && i < |alerts|
      modifies this
      ensures Valid()
      ensures alerts == old(alerts)[i := old(alerts)[i].(status := Acknowledged, acknowledgedAt := Some(now))]
    {
      alerts := alerts[i := alerts[i].(status := Acknowledged, acknowledgedAt := Some(now))];
    }

    /** `StockAlert.resolve`: status RESOLVED and its time stamp, nothing else. */
    method Resolve(i: nat, now: Time)
      requires Valid() && i < |alerts|
      modifies this
      ensures Valid()
      ensures alerts == old(alerts)[i := old(alerts)[i].(status := Resolved, resolvedAt := Some(now))]
    {
      alerts := alerts[i := alerts[i].(status := Resolved, resolvedAt := Some(now))];
    }

    /** `check_and_send_low_stock_alert(s)`. */
    method CheckAndSendLowStockAlert(s: Stock)
      requires Valid()
      modifies this
      ensures Valid()
      ensures alerts == AfterLowStockCheck(old(alerts), s)
    {
      if IsLowStock(s) {
        var _ := CreateAlert(s);
      }
    }
  }
}

=== FILE: clients.dfy ===
/** Client address formatting (backend/clients/models.py). */
module Clients {
  import opened Common
  import opened Strings

  /** The address columns of a `Client`; `city` and `country` are required
      columns, the others may be NULL. */
  datatype Client = Client(
    address: Option<string>,
    city: string,
    state: Option<string>,
    postalCode: Option<string>,
    country: string)

  /** The columns `get_full_address` considers, in the order it joins them. */
  function FullAddressFields(c: Client): (fields: seq<Option<string>>)
    ensures |fields| == 5 && fields[4] == Some(c.country)
  {
    [c.address, Some(c.city), c.state, c.postalCode, Some(c.country)]
  }

  /** The columns `get_location` considers, in the order it joins them. */
  function LocationFields(c: Client): (fields: seq<Option<string>>)
    ensures |fields| == 2 && fields[1] == Some(c.country)
  {
    [Some(c.city), Some(c.country)]
  }

  /** `Client.get_full_address`: the non-empty address parts joined by ", ". */
  method GetFullAddress(c: Client) returns (r: string)
    ensures r == Join(NonEmpty(FullAddressFields(c)), ", ")
  {
    ghost var fields := FullAddressFields(c);
    var parts: seq<string> := [];
    parts := AppendIfPresent(parts, c.address);
    parts := AppendIfPresent(parts, Some(c.city));
    parts := AppendIfPresent(parts, c.state);
    parts := AppendIfPresent(parts, c.postalCode);
    parts := AppendIfPresent(parts, Some(c.country));
    NonEmptyOfFive(fields);
    r := if parts != [] then Join(parts, ", ") else "";
  }

  /** `Client.get_location`: the non-empty ones of city and country joined by ", ". */
  method GetLocation(c: Client) returns (r: string)
    ensures r == Join(NonEmpty(LocationFields(c)), ", ")
  {
    ghost var fields := LocationFields(c);
    var parts: seq<string> := [];
    parts := AppendIfPresent(parts, Some(c.city));
    parts := AppendIfPresent(parts, Some(c.country));
    NonEmptyOfTwo(fields);
    r := if parts != [] then Join(parts, ", ") else "";
  }

  /** One part per non-empty column, and nothing at all when every column is empty. */
  lemma FullAddressParts(c: Client)
    ensures |NonEmpty(FullAddressFields(c))| == CountPresent(FullAddressFields(c))
    ensures CountPresent(FullAddressFields(c)) == 0 ==> Join(NonEmpty(FullAddressFields(c)), ", ") == ""
  {
    NonEmptyCount(FullAddressFields(c));
  }

  /** A non-empty country is the last segment of both the full address and the location. */
  lemma EndsWithCountry(c: Client)
    requires c.country != ""
    ensures var r := Join(NonEmpty(FullAddressFields(c)), ", ");
      |c.country| <= |r| && r[|r| - |c.country|..] == c.country
    ensures var r := Join(NonEmpty(LocationFields(c)), ", ");
      |c.country| <= |r| && r[|r| - |c.country|..] == c.country
  {
    NonEmptyLast(FullAddressFields(c));
    JoinEndsWithLast(NonEmpty(FullAddressFields(c)), ", ");
    NonEmptyLast(LocationFields(c));
    JoinEndsWithLast(NonEmpty(LocationFields(c)), ", ");
  }

  /** The location is "" exactly when city and country are both empty, and
      is "city, country" when both are filled in. */
  lemma LocationCases(c: Client)
    ensures Join(NonEmpty(LocationFields(c)), ", ") == "" <==> c.city == "" && c.country == ""
    ensures c.city != "" && c.country != "" ==> Join(NonEmpty(LocationFields(c)), ", ") == c.city + ", " + c.country
  {
    NonEmptySnoc([], Some(c.city));
    NonEmptySnoc([Some(c.city)], Some(c.country));
    if c.city != "" && c.country != "" {
      JoinSnoc([c.city], c.country, ", ");
    }
  }
}

=== FILE: common.dfy ===
/** Shared vocabulary of the ERP model: optional values, failures,
    identifiers of catalogue entities, calendar dates and instants. */
module Common {

  datatype Option<T> = None | Some(value: T)

  datatype Result<T, E> = Ok(value: T) | Err(error: E)

  /** Primary keys of the catalogue tables the core only refers to. */
  type ItemId = nat
  type WarehouseId = nat
  type VendorId = nat
  type ClientId = nat

  /** A calendar date (a day number) and an instant (a clock reading); both are
      opaque inputs of the model, supplied by the caller instead of a clock. */
  type Date = int
  type Time = int

  /** `max(0, x)` on whole numbers. */
  function Max0(x: int): (r: int)
    ensures r >= 0 && r >= x
    ensures r == x || r == 0
  {
    if x > 0 then x else 0
  }

  /** `max(Decimal('0.00'), x)` on exact decimals. */
  function Max0Real(x: real): (r: real)
    ensures r >= 0.0 && r >= x
    ensures r == x || r == 0.0
  {
    if x > 0.0 then x else 0.0
  }
}

=== FILE: inventory.dfy ===
/** Stock rows, categories and items of the inventory models
    (backend/inventory/models.py). A stock row is one (item, warehouse)
    record; the table of all rows is the class `StockTable`. */
module Inventory {
  import opened Common
  import opened Strings

  /** A stock row is identified by its (item, warehouse) pair. */
  type Key = (ItemId, WarehouseId)

  // ---------------------------------------------------------------------
  // Categories and items
  // ---------------------------------------------------------------------

  /** A category with its chain of parents up to a root category. */
  datatype Category = Category(name: string, parent: Option<Category>)

  /** `Category.get_full_path`: the parent's path, " > ", then the own name. */
  function FullPath(c: Category): string {
    if c.parent.Some? then FullPath(c.parent.value) + " > " + c.name else c.name
  }

  /** The names from the root category down to `c`. */
  function Lineage(c: Category): (names: seq<string>)
    ensures names != [] && names[|names| - 1] == c.name
  {
    (if c.parent.Some? then Lineage(c.parent.value) else []) + [c.name]
  }

  /** The full path is the lineage joined with " > "; in particular it is the bare
      name for a root and always ends with the category's own name. */
  lemma {:induction false} FullPathIsJoinedLineage(c: Category)
    ensures FullPath(c) == Join(Lineage(c), " > ")
    ensures c.parent.None? ==> FullPath(c) == c.name
    ensures |c.name| <= |FullPath(c)| && FullPath(c)[|FullPath(c)| - |c.name|..] == c.name
  {
    if c.parent.Some? {
      FullPathIsJoinedLineage(c.parent.value);
      JoinSnoc(Lineage(c.parent.value), c.name, " > ");
    }
    JoinEndsWithLast(Lineage(c), " > ");
  }

  datatype Item = Item(id: ItemId, costPrice: real, sellingPrice: real, reorderLevel: int)

  /** `Item.get_margin`, without the final rounding to two places: the markup
      over cost in percent, or 0 when the cost price is not positive. The
      selling price is recovered from the cost and the margin. */
  function Margin(item: Item): (r: real)
    ensures item.costPrice <= 0.0 ==> r == 0.0
    ensures item.costPrice > 0.0 ==> item.sellingPrice == item.costPrice * (1.0 + r / 100.0)
    ensures item.costPrice > 0.0 ==> (r > 0.0 <==> item.sellingPrice > item.costPrice)
    ensures item.costPrice > 0.0 ==> (r == 0.0 <==> item.sellingPrice == item.costPrice)
  {
    if item.costPrice > 0.0 then
      var m := (item.sellingPrice - item.costPrice) / item.costPrice * 100.0;
      assert item.costPrice * (m / 100.0) == item.sellingPrice - item.costPrice;
      m
    else 0.0
  }

  // ---------------------------------------------------------------------
  // Stock rows
  // ---------------------------------------------------------------------

  /** One stored `Stock` row. `available` is the stored column
      `available_quantity`, which is only as fresh as the last save that wrote it. */
  datatype Stock = Stock(
    item: ItemId,
    warehouse: WarehouseId,
    quantity: int,
    reserved: int,
    available: int,
    minQuantity: int,
    averageCost: real,
    lastRestocked: Option<Time>)
  {
    function Key(): Key { (item, warehouse) }
  }

  /** The columns a `save(update_fields=[...])` can name. */
  datatype StockField = Quantity | Reserved | Available | MinQuantity | AverageCost | LastRestocked

  /** `Stock.save` before it writes: the in-memory row with `available_quantity`
      recomputed as `max(0, quantity - reserved_quantity)`. */
  function Save(s: Stock): (r: Stock)
    ensures r == s.(available := r.available)
    ensures r.available >= 0
    ensures s.reserved <= s.quantity ==> r.available == s.quantity - s.reserved
    ensures s.reserved > s.quantity ==> r.available == 0
  {
    s.(available := Max0(s.quantity - s.reserved))
  }

  /** The stored row after `obj.save(update_fields=fields)` over the stored row
      `stored`; `None` is a plain `save()`, which writes every column. A
      column outside `fields` keeps its stored value, even though `Stock.save`
      recomputed it in memory. */
  function Persist(stored: Stock, obj: Stock, fields: Option<set<StockField>>): (r: Stock)
    ensures fields.None? ==> r == Save(obj)
    ensures r.item == obj.item && r.warehouse == obj.warehouse
    ensures stored.available >= 0 ==> r.available >= 0
  {
    var saved := Save(obj);
    if fields.None? then saved
    else
      var fs := fields.value;
      Stock(obj.item, obj.warehouse,
        if Quantity in fs then saved.quantity else stored.quantity,
        if Reserved in fs then saved.reserved else stored.reserved,
        if Available in fs then saved.available else stored.available,
        if MinQuantity in fs then saved.minQuantity else stored.minQuantity,
        if AverageCost in fs then saved.averageCost else stored.averageCost,
        if LastRestocked in fs then saved.lastRestocked else stored.lastRestocked)
  }

  /** A save that does not list `available_quantity` leaves the stored column
      as it was, so afterwards it need not equal `max(0, quantity - reserved)`. */
  lemma PartialSaveKeepsAvailable(stored: Stock, obj: Stock, fs: set<StockField>)
    requires Available !in fs
    ensures Persist(stored, obj, Some(fs)).available == stored.available
  {
  }

  /** `Stock.is_low_stock`: on-hand quantity at or below the minimum. */
  predicate IsLowStock(s: Stock) {
    s.quantity <= s.minQuantity
  }

  /** `Stock.is_out_of_stock`. */
  predicate IsOutOfStock(s: Stock) {
    s.quantity == 0
  }

  /** `Stock.can_fulfill_order`, on the stored `available_quantity`. */
  predicate CanFulfillOrder(s: Stock, requested: int) {
    s.available >= requested
  }

  /** With the validated `min_quantity >= 0`, an empty row is also a low one;
      right after a full save, a row can fulfil `n > 0` units exactly when its
      unreserved quantity reaches `n`. */
  lemma StockPredicates(s: Stock, n: int)
    requires s.minQuantity >= 0
    ensures IsOutOfStock(s) ==> IsLowStock(s)
    ensures n > 0 ==> (CanFulfillOrder(Save(s), n) <==> s.quantity - s.reserved >= n)
  {
  }

  /** A row as `get_or_create` inserts it: no quantity, no reservation, the
      given average cost, the column defaults elsewhere, saved in full. */
  function NewStock(item: ItemId, warehouse: WarehouseId, averageCost: real): (r: Stock)
    ensures r.Key() == (item, warehouse)
    ensures r.quantity == 0 && r.reserved == 0 && r.available == 0 && r.minQuantity == 0
    ensures r.averageCost == averageCost && r.lastRestocked == None
  {
    Save(Stock(item, warehouse, 0, 0, 0, 0, averageCost, None))
  }

  // ---------------------------------------------------------------------
  // Queries over the table of rows
  // ---------------------------------------------------------------------

  /** The warehouses (from `ws`, in that order) holding a row for `item`. */
  function ItemWarehouses(rows: map<Key, Stock>, ws: seq<WarehouseId>, item: ItemId): (r: seq<WarehouseId>)
    ensures forall w :: w in r <==> w in ws && (item, w) in rows
  {
    if ws == [] then []
    else (if (item, ws[0]) in rows then [ws[0]] else []) + ItemWarehouses(rows, ws[1..], item)
  }

  /** The row a sales line works on (`SalesItem.get_stock`): the row in the
      order's warehouse if there is one, else the item's first row in listing
      order (in any warehouse), else none. */
  function FindStock(rows: map<Key, Stock>, ws: seq<WarehouseId>, item: ItemId, orderWarehouse: Option<WarehouseId>): (r: Option<Key>)
    ensures r.Some? ==> r.value in rows && r.value.0 == item
    ensures orderWarehouse.Some? && (item, orderWarehouse.value) in rows ==> r == Some((item, orderWarehouse.value))
  {
    if orderWarehouse.Some? && (item, orderWarehouse.value) in rows then Some((item, orderWarehouse.value))
    else
      var found := ItemWarehouses(rows, ws, item);
      if found == [] then None else Some((item, found[0]))
  }

  /** Without a row in the order's warehouse, `get_stock` finds nothing
      exactly when the item has no row in any warehouse, and otherwise the
      row of the first warehouse in listing order that has one. */
  lemma FindStockFallback(rows: map<Key, Stock>, ws: seq<WarehouseId>, item: ItemId, orderWarehouse: Option<WarehouseId>)
    ensures FindStock(rows, ws, item, orderWarehouse).None? <==>
      !(orderWarehouse.Some? && (item, orderWarehouse.value) in rows) && forall w | w in ws :: (item, w) !in rows
    ensures var r := FindStock(rows, ws, item, orderWarehouse);
      r.Some? && !(orderWarehouse.Some? && (item, orderWarehouse.value) in rows) ==>
      exists j :: 0 <= j < |ws| && r.value.1 == ws[j] && forall i | 0 <= i < j :: (item, ws[i]) !in rows
  {
    if ItemWarehouses(rows, ws, item) != [] {
      FirstRowIsFirst(rows, ws, item);
    }
  }

  /** The first warehouse found is the first one in `ws` that has a row. */
  lemma {:induction false} FirstRowIsFirst(rows: map<Key, Stock>, ws: seq<WarehouseId>, item: ItemId)
    requires ItemWarehouses(rows, ws, item) != []
    ensures exists j :: (0 <= j < |ws| && ItemWarehouses(rows, ws, item)[0] == ws[j]
      && (item, ws[j]) in rows && forall i | 0 <= i < j :: (item, ws[i]) !in rows)
  {
    if (item, ws[0]) in rows {
      assert ItemWarehouses(rows, ws, item)[0] == ws[0];
    } else {
      assert ItemWarehouses(rows, ws, item) == ItemWarehouses(rows, ws[1..], item);
      FirstRowIsFirst(rows, ws[1..], item);
      var j :| 0 <= j < |ws[1..]| && ItemWarehouses(rows, ws[1..], item)[0] == ws[1..][j]
        && (item, ws[1..][j]) in rows && forall i | 0 <= i < j :: (item, ws[1..][i]) !in rows;
      assert forall i | 0 <= i < j + 1 :: (item, ws[i]) !in rows by {
        forall i | 0 <= i < j + 1 ensures (item, ws[i]) !in rows {
          if i > 0 { assert ws[i] == ws[1..][i - 1]; }
        }
      }
    }
  }

  /** Which row a line works on depends only on which rows exist, not on
      their contents. */
  lemma {:induction false} ItemWarehousesSameKeys(rows1: map<Key, Stock>, rows2: map<Key, Stock>, ws: seq<WarehouseId>, item: ItemId)
    requires rows1.Keys == rows2.Keys
    ensures ItemWarehouses(rows1, ws, item) == ItemWarehouses(rows2, ws, item)
  {
    if ws != [] {
      ItemWarehousesSameKeys(rows1, rows2, ws[1..], item);
    }
  }

  lemma FindStockSameKeys(rows1: map<Key, Stock>, rows2: map<Key, Stock>, ws: seq<WarehouseId>, item: ItemId, orderWarehouse: Option<WarehouseId>)
    requires rows1.Keys == rows2.Keys
    ensures FindStock(rows1, ws, item, orderWarehouse) == FindStock(rows2, ws, item, orderWarehouse)
  {
    ItemWarehousesSameKeys(rows1, rows2, ws, item);
  }

  /** Sum of `quantity` over the item's rows in the listed warehouses
      (`Item.get_total_stock`; 0 when there is none). */
  function TotalQuantity(rows: map<Key, Stock>, ws: seq<WarehouseId>, item: ItemId): int {
    if ws == [] then 0
    else (if (item, ws[0]) in rows then rows[(item, ws[0])].quantity else 0) + TotalQuantity(rows, ws[1..], item)
  }

  /** Sum of the stored `available_quantity` over the item's rows (0 when there is none). */
  function TotalAvailable(rows: map<Key, Stock>, ws: seq<WarehouseId>, item: ItemId): int {
    if ws == [] then 0
    else (if (item, ws[0]) in rows then rows[(item, ws[0])].available else 0) + TotalAvailable(rows, ws[1..], item)
  }

  /** `Item.is_low_stock`: the item's total stock over all warehouses is at or
      below its reorder level. */
  predicate ItemIsLowStock(rows: map<Key, Stock>, ws: seq<WarehouseId>, item: Item) {
    TotalQuantity(rows, ws, item.id) <= item.reorderLevel
  }

  /** An item without stock rows has no stock (the aggregate's `or 0`),
      nothing available, and is low exactly when its reorder level is not
      negative. */
  lemma {:induction false} NoRowsNoStock(rows: map<Key, Stock>, ws: seq<WarehouseId>, item: Item)
    requires forall w | w in ws :: (item.id, w) !in rows
    ensures TotalQuantity(rows, ws, item.id) == 0 && TotalAvailable(rows, ws, item.id) == 0
    ensures ItemIsLowStock(rows, ws, item) <==> item.reorderLevel >= 0
  {
    if ws != [] {
      assert ws[0] in ws;
      NoRowsNoStock(rows, ws[1..], item);
    }
  }

  predicate Distinct(ws: seq<WarehouseId>) {
    forall i, j | 0 <= i < j < |ws| :: ws[i] != ws[j]
  }

  /** Writing one row changes the item's total by the change of that row's
      quantity (a new row counts from 0); rows of other items leave it alone. */
  lemma {:induction false} TotalQuantityAfterWrite(rows: map<Key, Stock>, ws: seq<WarehouseId>, item: ItemId, k: Key, s: Stock)
    requires Distinct(ws) && k.1 in ws
    ensures TotalQuantity(rows[k := s], ws, item) ==
      TotalQuantity(rows, ws, item)
        + (if k.0 == item then s.quantity - (if k in rows then rows[k].quantity else 0) else 0)
  {
    if ws[0] == k.1 {
      assert k.1 !in ws[1..] by {
        forall i | 0 <= i < |ws[1..]| ensures ws[1..][i] != k.1 {
          assert ws[1..][i] == ws[i + 1];
        }
      }
      TotalQuantityUnaffected(rows, ws[1..], item, k, s);
    } else {
      assert k.1 in ws[1..];
      assert Distinct(ws[1..]) by {
        forall i, j | 0 <= i < j < |ws[1..]| ensures ws[1..][i] != ws[1..][j] {
          assert ws[1..][i] == ws[i + 1] && ws[1..][j] == ws[j + 1];
        }
      }
      TotalQuantityAfterWrite(rows, ws[1..], item, k, s);
    }
  }

  /** A row in a warehouse outside `ws` does not enter the total over `ws`. */
  lemma {:induction false} TotalQuantityUnaffected(rows: map<Key, Stock>, ws: seq<WarehouseId>, item: ItemId, k: Key, s: Stock)
    requires k.1 !in ws
    ensures TotalQuantity(rows[k := s], ws, item) == TotalQuantity(rows, ws, item)
  {
    if ws != [] {
      TotalQuantityUnaffected(rows, ws[1..], item, k, s);
    }
  }

  // ---------------------------------------------------------------------
  // The stock table
  // ---------------------------------------------------------------------

  /** The `Stock` table: one row per (item, warehouse), enforced by the map;
      `warehouses` lists the warehouses in the order the table is listed in,
      which decides the "first stock row" of an item. */
  class StockTable {
    var rows: map<Key, Stock>
    var warehouses: seq<WarehouseId>

    ghost predicate Valid()
      reads this
    {
      && Distinct(warehouses)
      && forall k | k in rows ::
           rows[k].Key() == k && k.1 in warehouses && rows[k].available >= 0
    }

    constructor (ws: seq<WarehouseId>)
      requires Distinct(ws)
      ensures Valid() && rows == map[] && warehouses == ws
    {
      rows := map[];
      warehouses := ws;
    }

    /** `stock.save(update_fields=fields)` for the row stored under `k`. */
    method Write(k: Key, obj: Stock, fields: Option<set<StockField>>)
      requires Valid() && k in rows && obj.Key() == k
      modifies this
      ensures Valid() && warehouses == old(warehouses)
      ensures rows == old(rows)[k := Persist(old(rows)[k], obj, fields)]
    {
      rows := rows[k := Persist(rows[k], obj, fields)];
    }

    /** `Stock.objects.get_or_create(item, warehouse, defaults=...)` with
        quantity 0, no reservation and the given average cost as defaults. */
    method GetOrCreate(item: ItemId, warehouse: WarehouseId, averageCost: real) returns (s: Stock)
      requires Valid() && warehouse in warehouses
      modifies this
      ensures Valid() && warehouses == old(warehouses)
      ensures (item, warehouse) in old(rows) ==> rows == old(rows) && s == rows[(item, warehouse)]
      ensures (item, warehouse) !in old(rows) ==>
        s == NewStock(item, warehouse, averageCost) && rows == old(rows)[(item, warehouse) := s]
    {
      if (item, warehouse) in rows {
        s := rows[(item, warehouse)];
      } else {
        s := NewStock(item, warehouse, averageCost);
        rows := rows[(item, warehouse) := s];
      }
    }
  }
}

=== FILE: purchase_signals.dfy ===
/** The stock side of receiving purchases (backend/purchases/signals.py):
    every received line raises the quantity of its item's row in the
    receiving warehouse, re-averages its cost and checks it for low stock. */
module PurchaseSignals {
  import opened Common
  import opened Inventory
  import opened StockAlerts
  import opened Purchases

  /** The weighted average cost of `q` units at `avg` and `received` units at
      `landed` (0 when the combined quantity is not positive). */
  function WeightedAverage(q: int, avg: real, received: int, landed: real): real {
    var totalQuantity := q + received;
    if totalQuantity > 0 then (q as real * avg + received as real * landed) / totalQuantity as real else 0.0
  }

  /** A row after `increase_stock_from_purchase_item` with `received` units
      at `landed` per unit: re-averaged cost, raised quantity, restock time
      and the available quantity of a full save. */
  function IncreasedRow(s: Stock, received: int, landed: real, now: Time): (r: Stock)
    ensures r.Key() == s.Key() && r.reserved == s.reserved && r.minQuantity == s.minQuantity
    ensures r.quantity == s.quantity + received
    ensures s.quantity > 0 ==> r.averageCost == WeightedAverage(s.quantity, s.averageCost, received, landed)
    ensures s.quantity <= 0 ==> r.averageCost == landed
    ensures r.lastRestocked == Some(now)
    ensures r.available == Max0(r.quantity - r.reserved)
  {
    var avg := if s.quantity > 0 then WeightedAverage(s.quantity, s.averageCost, received, landed) else landed;
    Save(s.(averageCost := avg, quantity := s.quantity + received, lastRestocked := Some(now)))
  }

  /** Scaling by a positive factor keeps the order of two values. */
  lemma ScaleKeepsOrder(k: real, x: real, y: real)
    requires k > 0.0
    ensures x <= y <==> k * x <= k * y
  {
    if x <= y {
      assert k * y - k * x == k * (y - x);
    } else {
      assert k * x - k * y == k * (x - y);
    }
  }

  /** A receipt into a stocked row moves its average cost to a value between
      the old average and the landed cost. */
  lemma WeightedAverageBetween(q: int, avg: real, received: int, landed: real)
    requires q > 0 && received > 0
    ensures avg <= landed ==> avg <= WeightedAverage(q, avg, received, landed) <= landed
    ensures landed <= avg ==> landed <= WeightedAverage(q, avg, received, landed) <= avg
  {
    var Q, R := q as real, received as real;
    var T := (q + received) as real;
    var m := WeightedAverage(q, avg, received, landed);
    assert T == Q + R;
    assert T * m == Q * avg + R * landed;
    ScaleKeepsOrder(Q, avg, landed);
    ScaleKeepsOrder(R, avg, landed);
    assert T * avg == Q * avg + R * avg;
    assert T * landed == Q * landed + R * landed;
    ScaleKeepsOrder(T, avg, m);
    ScaleKeepsOrder(T, m, landed);
    ScaleKeepsOrder(T, landed, m);
    ScaleKeepsOrder(T, m, avg);
  }

  /** A receipt into a stocked row leaves the row's average cost between
      its old average and the landed cost of the receipt. */
  lemma ReceiptCostBetween(s: Stock, received: int, landed: real, now: Time)
    requires s.quantity > 0 && received > 0
    ensures var r := IncreasedRow(s, received, landed, now);
      (s.averageCost <= landed ==> s.averageCost <= r.averageCost <= landed) &&
      (landed <= s.averageCost ==> landed <= r.averageCost <= s.averageCost)
  {
    WeightedAverageBetween(s.quantity, s.averageCost, received, landed);
  }

  /** Two receipts into an empty row leave the cost averaged over both. */
  lemma TwoReceiptsAverage(s: Stock, q1: int, c1: real, q2: int, c2: real, t1: Time, t2: Time)
    requires s.quantity == 0 && q1 > 0 && q2 > 0
    ensures var r := IncreasedRow(IncreasedRow(s, q1, c1, t1), q2, c2, t2);
      r.quantity == q1 + q2 &&
      r.averageCost == (q1 as real * c1 + q2 as real * c2) / (q1 + q2) as real
  {
  }

  /** `increase_stock_from_purchase_item` for one line received into
      warehouse `w`: nothing for a non-positive received quantity; otherwise
      the row is fetched or created with the landed cost as its average,
      increased, fully saved and checked for low stock. */
  function ReceiveLine(st: StockState, line: PurchaseLine, w: WarehouseId, now: Time): StockState {
    if line.receivedQuantity <= 0 then st
    else
      var k := (line.item, w);
      var current := if k in st.rows then st.rows[k] else NewStock(line.item, w, line.landedCostPerUnit);
      var s := IncreasedRow(current, line.receivedQuantity, line.landedCostPerUnit, now);
      StockState(st.rows[k := s], AfterLowStockCheck(st.alerts, s))
  }

  /** A receipt into a warehouse without a row for the item creates the row
      holding exactly the received units, unreserved and all available, at
      the landed cost. */
  lemma ReceiveIntoNewRow(st: StockState, line: PurchaseLine, w: WarehouseId, now: Time)
    requires line.receivedQuantity > 0 && (line.item, w) !in st.rows
    ensures var r := ReceiveLine(st, line, w, now).rows[(line.item, w)];
      && r.quantity == line.receivedQuantity && r.reserved == 0 && r.available == line.receivedQuantity
      && r.averageCost == line.landedCostPerUnit && r.lastRestocked == Some(now)
  {
  }

  /** The lines received one after the other. */
  function ReceiveLines(st: StockState, lines: seq<PurchaseLine>, w: WarehouseId, now: Time): StockState {
    if lines == [] then st
    else ReceiveLine(ReceiveLines(st, lines[..|lines| - 1], w, now), lines[|lines| - 1], w, now)
  }

  /** The quantity stored under `k`, 0 when there is no row. */
  function QuantityAt(rows: map<Key, Stock>, k: Key): int {
    if k in rows then rows[k].quantity else 0
  }

  /** The positive received quantities of the lines for `item`. */
  function ReceivedOf(lines: seq<PurchaseLine>, item: ItemId): int {
    if lines == [] then 0
    else
      var l := lines[|lines| - 1];
      ReceivedOf(lines[..|lines| - 1], item) + (if l.item == item && l.receivedQuantity > 0 then l.receivedQuantity else 0)
  }

  /** Receiving an order's lines raises each row of the receiving warehouse
      by the received quantities of its item, and leaves every other
      warehouse's rows as they were. */
  lemma {:induction false} ReceiveLinesQuantity(st: StockState, lines: seq<PurchaseLine>, w: WarehouseId, now: Time, k: Key)
    ensures k.1 == w ==>
      QuantityAt(ReceiveLines(st, lines, w, now).rows, k) == QuantityAt(st.rows, k) + ReceivedOf(lines, k.0)
    ensures k.1 != w ==>
      (k in ReceiveLines(st, lines, w, now).rows <==> k in st.rows) &&
      (k in st.rows ==> ReceiveLines(st, lines, w, now).rows[k] == st.rows[k])
  {
    if lines != [] {
      ReceiveLinesQuantity(st, lines[..|lines| - 1], w, now, k);
    }
  }

  /** Receiving keeps the stored rows well formed and at most one pending
      alert per row. */
  lemma {:induction false} ReceiveLinesKeepsAlerts(st: StockState, lines: seq<PurchaseLine>, w: WarehouseId, now: Time)
    requires AtMostOnePending(st.alerts)
    ensures AtMostOnePending(ReceiveLines(st, lines, w, now).alerts)
  {
    if lines != [] {
      var mid := ReceiveLines(st, lines[..|lines| - 1], w, now);
      ReceiveLinesKeepsAlerts(st, lines[..|lines| - 1], w, now);
      var line := lines[|lines| - 1];
      if line.receivedQuantity > 0 {
        var k := (line.item, w);
        var current := if k in mid.rows then mid.rows[k] else NewStock(line.item, w, line.landedCostPerUnit);
        LowStockCheck(mid.alerts, IncreasedRow(current, line.receivedQuantity, line.landedCostPerUnit, now));
      }
    }
  }

  /** The order-level handler runs on every save of a RECEIVED order, so a
      second save receives the same quantities again. */
  lemma ReceiptIsNotIdempotent(st: StockState, lines: seq<PurchaseLine>, w: WarehouseId, now: Time, item: ItemId)
    ensures var once := ReceiveLines(st, lines, w, now);
      QuantityAt(ReceiveLines(once, lines, w, now).rows, (item, w)) ==
      QuantityAt(st.rows, (item, w)) + 2 * ReceivedOf(lines, item)
  {
    var once := ReceiveLines(st, lines, w, now);
    ReceiveLinesQuantity(st, lines, w, now, (item, w));
    ReceiveLinesQuantity(once, lines, w, now, (item, w));
  }

  /** `increase_stock_from_purchase_item`; the receiving warehouse (the first
      active one) is a parameter. */
  method IncreaseStockFromPurchaseItem(table: StockTable, book: AlertBook, line: PurchaseLine, w: WarehouseId, now: Time)
    requires table.Valid() && book.Valid() && w in table.warehouses
    modifies table, book
    ensures table.Valid() && book.Valid() && table.warehouses == old(table.warehouses)
    ensures StockState(table.rows, book.alerts) ==
      ReceiveLine(StockState(old(table.rows), old(book.alerts)), line, w, now)
  {
    if line.receivedQuantity <= 0 {
      return;
    }
    var stock := table.GetOrCreate(line.item, w, line.landedCostPerUnit);
    ghost var current := stock;
    if stock.quantity > 0 {
      var totalCost := stock.quantity as real * stock.averageCost + line.receivedQuantity as real * line.landedCostPerUnit;
      var totalQuantity := stock.quantity + line.receivedQuantity;
      stock := stock.(averageCost := if totalQuantity > 0 then totalCost / totalQuantity as real else 0.0);
    } else {
      stock := stock.(averageCost := line.landedCostPerUnit);
    }
    stock := stock.(quantity := stock.quantity + line.receivedQuantity);
    stock := stock.(lastRestocked := Some(now));
    assert Save(stock) == IncreasedRow(current, line.receivedQuantity, line.landedCostPerUnit, now);
    table.Write(stock.Key(), stock, None);
    book.CheckAndSendLowStockAlert(table.rows[stock.Key()]);
  }

  /** `update_stock_on_purchase_received`, run after a line of `order` is
      saved: the line is received when the order is RECEIVED. */
  method UpdateStockOnPurchaseReceived(order: PurchaseOrder, i: nat, table: StockTable, book: AlertBook, w: WarehouseId, now: Time)
    requires i < |order.lines|
    requires table.Valid() && book.Valid() && w in table.warehouses
    modifies table, book
    ensures table.Valid() && book.Valid() && table.warehouses == old(table.warehouses)
    ensures order.status == Received ==>
      StockState(table.rows, book.alerts) ==
      ReceiveLine(StockState(old(table.rows), old(book.alerts)), order.lines[i], w, now)
    ensures order.status != Received ==> table.rows == old(table.rows) && book.alerts == old(book.alerts)
  {
    if order.status == Received && order.lines[i].receivedQuantity > 0 {
      IncreaseStockFromPurchaseItem(table, book, order.lines[i], w, now);
    }
  }

  /** `update_stock_on_order_received`, run after every save of `order`:
      when it is RECEIVED, all its lines are received. */
  method UpdateStockOnOrderReceived(order: PurchaseOrder, table: StockTable, book: AlertBook, w: WarehouseId, now: Time)
    requires table.Valid() && book.Valid() && w in table.warehouses
    modifies table, book
    ensures table.Valid() && book.Valid() && table.warehouses == old(table.warehouses)
    ensures order.status == Received ==>
      StockState(table.rows, book.alerts) ==
      ReceiveLines(StockState(old(table.rows), old(book.alerts)), order.lines, w, now)
    ensures order.status != Received ==> table.rows == old(table.rows) && book.alerts == old(book.alerts)
  {
    if order.status == Received {
      var lines := order.lines;
      var i := 0;
      while i < |lines|
        invariant 0 <= i <= |lines|
        invariant table.Valid() && book.Valid() && table.warehouses == old(table.warehouses)
        invariant StockState(table.rows, book.alerts) ==
          ReceiveLines(StockState(old(table.rows), old(book.alerts)), lines[..i], w, now)
      {
        if lines[i].receivedQuantity > 0 {
          IncreaseStockFromPurchaseItem(table, book, lines[i], w, now);
        }
        assert lines[..i + 1][..i] == lines[..i];
        i := i + 1;
      }
      assert lines[..i] == lines;
    }
  }
}

=== FILE: purchases.dfy ===
/** Purchase orders and their lines (backend/purchases/models.py): line totals,
    landed cost, receipt bookkeeping and the order total. */
module Purchases {
  import opened Common

  datatype PurchaseStatus = Pending | Received | Partial | Cancelled

  /** One `PurchaseItem` as stored; `lineTotal`, `landedCostPerUnit` and
      `totalLandedCost` are the derived columns its `save` recomputes. */
  datatype PurchaseLine = PurchaseLine(
    item: ItemId,
    quantity: int,
    unitCost: real,
    freightCost: real,
    customsDuty: real,
    otherCosts: real,
    lineTotal: real,
    landedCostPerUnit: real,
    totalLandedCost: real,
    receivedQuantity: int)

  /** Freight, duty and other costs allocated to the line. */
  function AdditionalCosts(l: PurchaseLine): real {
    l.freightCost + l.customsDuty + l.otherCosts
  }

  /** The validators on the cost columns: none of them is negative. */
  predicate CostsValid(l: PurchaseLine) {
    l.unitCost >= 0.0 && l.freightCost >= 0.0 && l.customsDuty >= 0.0 && l.otherCosts >= 0.0
  }

  /** `PurchaseItem.calculate_line_total`. */
  function CalculateLineTotal(l: PurchaseLine): real {
    l.quantity as real * l.unitCost
  }

  /** `PurchaseItem.calculate_landed_cost`: the line with its landed cost per
      unit (unit cost plus the additional costs spread over the quantity, or
      the bare unit cost for a non-positive quantity) and its total landed cost. */
  function CalculateLandedCost(l: PurchaseLine): (r: PurchaseLine)
    ensures r == l.(landedCostPerUnit := r.landedCostPerUnit, totalLandedCost := r.totalLandedCost)
    ensures l.quantity > 0 ==> r.landedCostPerUnit == l.unitCost + AdditionalCosts(l) / l.quantity as real
    ensures l.quantity <= 0 ==> r.landedCostPerUnit == l.unitCost
    ensures r.totalLandedCost == r.landedCostPerUnit * l.quantity as real
    ensures l.quantity > 0 ==> r.totalLandedCost == CalculateLineTotal(l) + AdditionalCosts(l)
    ensures CostsValid(l) ==> r.landedCostPerUnit >= l.unitCost
  {
    var q := l.quantity as real;
    var extraPerUnit := if l.quantity > 0 then AdditionalCosts(l) / q else 0.0;
    var perUnit := l.unitCost + extraPerUnit;
    assert l.quantity > 0 ==> extraPerUnit * q == AdditionalCosts(l);
    assert perUnit * q == l.unitCost * q + extraPerUnit * q;
    l.(landedCostPerUnit := perUnit, totalLandedCost := perUnit * q)
  }

  /** The derived columns as `PurchaseItem.save` leaves them. */
  function Recalculate(l: PurchaseLine): (r: PurchaseLine)
    ensures r.lineTotal == l.quantity as real * l.unitCost
    ensures r == CalculateLandedCost(l).(lineTotal := r.lineTotal)
    ensures l.quantity > 0 ==> r.totalLandedCost == r.lineTotal + AdditionalCosts(l)
  {
    CalculateLandedCost(l.(lineTotal := CalculateLineTotal(l)))
  }

  /** Saving a line twice changes nothing the second time. */
  lemma RecalculateIdempotent(l: PurchaseLine)
    ensures Recalculate(Recalculate(l)) == Recalculate(l)
  {
  }

  datatype CostBreakdown = CostBreakdown(
    unitCost: real,
    quantity: int,
    subtotal: real,
    freightCost: real,
    customsDuty: real,
    otherCosts: real,
    totalAdditionalCosts: real,
    landedCostPerUnit: real,
    totalLandedCost: real)

  /** `PurchaseItem.get_cost_breakdown`. */
  function GetCostBreakdown(l: PurchaseLine): (b: CostBreakdown)
    ensures b.totalAdditionalCosts == b.freightCost + b.customsDuty + b.otherCosts == AdditionalCosts(l)
    ensures b.unitCost == l.unitCost && b.quantity == l.quantity
    ensures b.freightCost == l.freightCost && b.customsDuty == l.customsDuty && b.otherCosts == l.otherCosts
    ensures b.subtotal == l.lineTotal && b.landedCostPerUnit == l.landedCostPerUnit && b.totalLandedCost == l.totalLandedCost
  {
    CostBreakdown(l.unitCost, l.quantity, l.lineTotal, l.freightCost, l.customsDuty, l.otherCosts,
      l.freightCost + l.customsDuty + l.otherCosts, l.landedCostPerUnit, l.totalLandedCost)
  }

  /** For a saved line with a positive quantity the breakdown adds up: the
      subtotal plus the additional costs is the total landed cost. */
  lemma BreakdownAddsUp(l: PurchaseLine)
    requires l.quantity > 0
    ensures var b := GetCostBreakdown(Recalculate(l));
      b.subtotal + b.totalAdditionalCosts == b.totalLandedCost
  {
  }

  /** `PurchaseItem.is_fully_received`. */
  predicate IsFullyReceived(l: PurchaseLine) {
    l.receivedQuantity >= l.quantity
  }

  /** `PurchaseItem.get_pending_quantity`: what is still to be received,
      never negative, and zero exactly for a fully received line. */
  function PendingQuantity(l: PurchaseLine): (r: int)
    ensures r >= 0
    ensures r == 0 <==> IsFullyReceived(l)
    ensures r > 0 ==> l.receivedQuantity + r == l.quantity
  {
    Max0(l.quantity - l.receivedQuantity)
  }

  /** Sum of the stored line totals (the `Sum('line_total')` aggregate; 0 for no lines). */
  function SumLineTotals(lines: seq<PurchaseLine>): real {
    if lines == [] then 0.0 else SumLineTotals(lines[..|lines| - 1]) + lines[|lines| - 1].lineTotal
  }

  /** The order total splits over any split of the lines, so adding a line
      adds its line total; with no negative line it is never negative. */
  lemma {:induction false} SumLineTotalsAppend(a: seq<PurchaseLine>, b: seq<PurchaseLine>)
    ensures SumLineTotals(a + b) == SumLineTotals(a) + SumLineTotals(b)
  {
    if b != [] {
      assert (a + b)[..|a + b| - 1] == a + b[..|b| - 1];
      SumLineTotalsAppend(a, b[..|b| - 1]);
    } else {
      assert a + b == a;
    }
  }

  lemma {:induction false} SumLineTotalsNonNegative(lines: seq<PurchaseLine>)
    requires forall i | 0 <= i < |lines| :: lines[i].lineTotal >= 0.0
    ensures SumLineTotals(lines) >= 0.0
  {
    if lines != [] {
      SumLineTotalsNonNegative(lines[..|lines| - 1]);
    }
  }

  /** What the profit-and-loss report reads of a purchase order. */
  datatype PurchaseRecord = PurchaseRecord(orderDate: Date, status: PurchaseStatus, totalAmount: real)

  /** A `PurchaseOrder` with its lines. */
  class PurchaseOrder {
    var orderDate: Date
    var status: PurchaseStatus
    var receivedDate: Option<Date>
    var totalAmount: real
    var lines: seq<PurchaseLine>

    constructor (orderDate: Date, status: PurchaseStatus)
      ensures this.orderDate == orderDate && this.status == status
      ensures receivedDate == None && totalAmount == 0.0 && lines == []
    {
      this.orderDate := orderDate;
      this.status := status;
      receivedDate := None;
      totalAmount := 0.0;
      lines := [];
    }

    function Record(): PurchaseRecord
      reads this
    {
      PurchaseRecord(orderDate, status, totalAmount)
    }

    /** `PurchaseOrder.calculate_total`: the sum of the lines' totals. */
    method CalculateTotal() returns (total: real)
      modifies this
      ensures total == totalAmount == SumLineTotals(lines)
      ensures lines == old(lines) && status == old(status) && receivedDate == old(receivedDate)
      ensures orderDate == old(orderDate)
    {
      total := SumLineTotals(lines);
      totalAmount := total;
    }

    /** `PurchaseOrder.mark_as_received`: a RECEIVED order stays as it is;
        any other becomes RECEIVED, received today. */
    method MarkAsReceived(today: Date)
      modifies this
      ensures old(status) == Received ==> status == Received && receivedDate == old(receivedDate)
      ensures old(status) != Received ==> status == Received && receivedDate == Some(today)
      ensures lines == old(lines) && totalAmount == old(totalAmount) && orderDate == old(orderDate)
    {
      if status != Received {
        status := Received;
        receivedDate := Some(today);
      }
    }

    /** `PurchaseItem.save` for the line at `i`: its derived columns are
        recomputed, then the order total. */
    method SaveLine(i: nat)
      requires i < |lines|
      modifies this
      ensures lines == old(lines)[i := Recalculate(old(lines)[i])]
      ensures totalAmount == SumLineTotals(lines)
      ensures status == old(status) && receivedDate == old(receivedDate) && orderDate == old(orderDate)
    {
      lines := lines[i := Recalculate(lines[i])];
      var _ := CalculateTotal();
    }

    /** Creating a `PurchaseItem` on this order: the line is stored with its
        derived columns and the order total grows by its line total. */
    method AddLine(l: PurchaseLine)
      modifies this
      ensures lines == old(lines) + [Recalculate(l)]
      ensures totalAmount == SumLineTotals(old(lines)) + Recalculate(l).lineTotal
      ensures status == old(status) && receivedDate == old(receivedDate) && orderDate == old(orderDate)
    {
      lines := lines + [l];
      SaveLine(|lines| - 1);
      assert lines[..|lines| - 1] == old(lines);
    }
  }
}

=== FILE: sales.dfy ===
/** Sales orders and their lines (backend/sales/models.py): line and order
    totals, and the stock bookkeeping of reserving, releasing and reducing
    stock as an order moves through its statuses. */
module Sales {
  import opened Common
  import opened Inventory

  datatype SalesStatus = Pending | Confirmed | Shipped | Delivered | Cancelled

  /** One `SalesItem`; `lineTotal` is the column its `save` recomputes. */
  datatype SalesLine = SalesLine(
    item: ItemId,
    quantity: int,
    unitPrice: real,
    discountPercentage: real,
    lineTotal: real,
    shippedQuantity: int)

  /** `SalesItem.calculate_line_total`: the subtotal less the line's
      percentage discount. */
  function CalculateLineTotal(l: SalesLine): (r: real)
    ensures l.quantity >= 0 && l.unitPrice >= 0.0 && 0.0 <= l.discountPercentage <= 100.0 ==>
      0.0 <= r <= l.quantity as real * l.unitPrice
    ensures l.discountPercentage == 0.0 ==> r == l.quantity as real * l.unitPrice
    ensures l.discountPercentage == 100.0 ==> r == 0.0
    ensures l.quantity > 0 && l.unitPrice > 0.0 && l.discountPercentage > 100.0 ==> r < 0.0
  {
    var subtotal := l.quantity as real * l.unitPrice;
    var fraction := l.discountPercentage / 100.0;
    var discount := subtotal * fraction;
    if l.quantity >= 0 && l.unitPrice >= 0.0 && 0.0 <= l.discountPercentage <= 100.0 then
      assert 0.0 <= subtotal;
      assert 0.0 <= fraction <= 1.0;
      assert subtotal * fraction <= subtotal * 1.0;
      subtotal - discount
    else if l.quantity > 0 && l.unitPrice > 0.0 && l.discountPercentage > 100.0 then
      assert 0.0 < subtotal && 1.0 < fraction;
      assert subtotal * 1.0 < subtotal * fraction;
      subtotal - discount
    else subtotal - discount
  }

  /** Sum of the stored line totals (0 for no lines). */
  function SumLineTotals(lines: seq<SalesLine>): real {
    if lines == [] then 0.0 else SumLineTotals(lines[..|lines| - 1]) + lines[|lines| - 1].lineTotal
  }

  /** Lines with the same line totals have the same sum. */
  lemma {:induction false} SumLineTotalsPointwise(a: seq<SalesLine>, b: seq<SalesLine>)
    requires |a| == |b| && forall i | 0 <= i < |a| :: a[i].lineTotal == b[i].lineTotal
    ensures SumLineTotals(a) == SumLineTotals(b)
  {
    if a != [] {
      SumLineTotalsPointwise(a[..|a| - 1], b[..|b| - 1]);
    }
  }

  /** `SalesOrder.calculate_total`: the lines' sum less the order discount,
      never below zero. */
  function OrderTotal(lines: seq<SalesLine>, discountAmount: real): (r: real)
    ensures r >= 0.0
    ensures SumLineTotals(lines) >= discountAmount ==> r == SumLineTotals(lines) - discountAmount
    ensures SumLineTotals(lines) <= discountAmount ==> r == 0.0
  {
    Max0Real(SumLineTotals(lines) - discountAmount)
  }

  // ---------------------------------------------------------------------
  // What the line-level stock operations do to one stored row
  // ---------------------------------------------------------------------

  datatype LineOp = Reserve | Release | Reduce

  /** The row object as the line-level operation leaves it in memory before
      saving: `reserve_stock` adds the line quantity to the reservation,
      `release_reserved_stock` takes it off (not below zero) and
      `reduce_stock` takes it off both reservation and quantity (each not
      below zero). */
  function Updated(op: LineOp, s: Stock, q: int): Stock {
    match op
    case Reserve => s.(reserved := s.reserved + q)
    case Release => s.(reserved := Max0(s.reserved - q))
    case Reduce => s.(reserved := Max0(s.reserved - q), quantity := Max0(s.quantity - q))
  }

  /** The columns each operation lists in `update_fields`. */
  function Fields(op: LineOp): set<StockField> {
    if op == Reduce then {Quantity, Reserved} else {Reserved}
  }

  /** The stored row after the operation: only the listed columns are
      written, so the stored available quantity is not refreshed, and a
      reservation is taken with no check against what is on hand. */
  function ApplyToRow(op: LineOp, s: Stock, q: int): (r: Stock)
    ensures op == Reserve ==> r == s.(reserved := s.reserved + q)
    ensures op == Release ==> r == s.(reserved := Max0(s.reserved - q))
    ensures op == Reduce ==> r == s.(reserved := Max0(s.reserved - q), quantity := Max0(s.quantity - q))
  {
    Persist(s, Updated(op, s, q), Some(Fields(op)))
  }

  /** One line's operation on the stored rows: on the row `get_stock` finds,
      if any. */
  function ApplyLine(rows: map<Key, Stock>, ws: seq<WarehouseId>, wh: Option<WarehouseId>, op: LineOp, l: SalesLine): (r: map<Key, Stock>)
    ensures r.Keys == rows.Keys
  {
    match FindStock(rows, ws, l.item, wh)
    case None => rows
    case Some(k) => rows[k := ApplyToRow(op, rows[k], l.quantity)]
  }

  /** The operation applied to the lines one after the other. */
  function ApplyLines(rows: map<Key, Stock>, ws: seq<WarehouseId>, wh: Option<WarehouseId>, op: LineOp, lines: seq<SalesLine>): (r: map<Key, Stock>)
    ensures r.Keys == rows.Keys
  {
    if lines == [] then rows
    else ApplyLine(ApplyLines(rows, ws, wh, op, lines[..|lines| - 1]), ws, wh, op, lines[|lines| - 1])
  }

  lemma ApplyLinesStep(rows: map<Key, Stock>, ws: seq<WarehouseId>, wh: Option<WarehouseId>, op: LineOp, lines: seq<SalesLine>, i: nat)
    requires i < |lines|
    ensures ApplyLines(rows, ws, wh, op, lines[..i + 1]) == ApplyLine(ApplyLines(rows, ws, wh, op, lines[..i]), ws, wh, op, lines[i])
  {
    assert lines[..i + 1][..i] == lines[..i];
  }

  /** The quantities of the lines whose operation lands on row `k`. */
  function QuantityOnRow(rows: map<Key, Stock>, ws: seq<WarehouseId>, wh: Option<WarehouseId>, lines: seq<SalesLine>, k: Key): int {
    if lines == [] then 0
    else
      var l := lines[|lines| - 1];
      QuantityOnRow(rows, ws, wh, lines[..|lines| - 1], k) + (if FindStock(rows, ws, l.item, wh) == Some(k) then l.quantity else 0)
  }

  lemma {:induction false} QuantityOnRowSameKeys(rows1: map<Key, Stock>, rows2: map<Key, Stock>, ws: seq<WarehouseId>, wh: Option<WarehouseId>, lines: seq<SalesLine>, k: Key)
    requires rows1.Keys == rows2.Keys
    ensures QuantityOnRow(rows1, ws, wh, lines, k) == QuantityOnRow(rows2, ws, wh, lines, k)
  {
    if lines != [] {
      QuantityOnRowSameKeys(rows1, rows2, ws, wh, lines[..|lines| - 1], k);
      FindStockSameKeys(rows1, rows2, ws, lines[|lines| - 1].item, wh);
    }
  }

  predicate QuantitiesNonNegative(lines: seq<SalesLine>) {
    forall i | 0 <= i < |lines| :: lines[i].quantity >= 0
  }

  lemma {:induction false} QuantityOnRowNonNegative(rows: map<Key, Stock>, ws: seq<WarehouseId>, wh: Option<WarehouseId>, lines: seq<SalesLine>, k: Key)
    requires QuantitiesNonNegative(lines)
    ensures QuantityOnRow(rows, ws, wh, lines, k) >= 0
  {
    if lines != [] {
      QuantityOnRowNonNegative(rows, ws, wh, lines[..|lines| - 1], k);
    }
  }

  /** Reserving an order's lines raises each row's reservation by the
      quantities of the lines that land on it and changes nothing else. */
  lemma {:induction false} ReserveLinesEffect(rows: map<Key, Stock>, ws: seq<WarehouseId>, wh: Option<WarehouseId>, lines: seq<SalesLine>, k: Key)
    requires k in rows
    ensures ApplyLines(rows, ws, wh, Reserve, lines)[k] ==
      rows[k].(reserved := rows[k].reserved + QuantityOnRow(rows, ws, wh, lines, k))
  {
    if lines != [] {
      var prefix := lines[..|lines| - 1];
      ReserveLinesEffect(rows, ws, wh, prefix, k);
      FindStockSameKeys(ApplyLines(rows, ws, wh, Reserve, prefix), rows, ws, lines[|lines| - 1].item, wh);
    }
  }

  /** Releasing lines whose quantities the rows' reservations cover lowers
      each reservation by exactly those quantities. */
  lemma {:induction false} ReleaseLinesEffect(rows: map<Key, Stock>, ws: seq<WarehouseId>, wh: Option<WarehouseId>, lines: seq<SalesLine>, k: Key)
    requires k in rows && QuantitiesNonNegative(lines)
    requires rows[k].reserved >= QuantityOnRow(rows, ws, wh, lines, k)
    ensures ApplyLines(rows, ws, wh, Release, lines)[k] ==
      rows[k].(reserved := rows[k].reserved - QuantityOnRow(rows, ws, wh, lines, k))
  {
    if lines != [] {
      var prefix := lines[..|lines| - 1];
      var l := lines[|lines| - 1];
      assert l.quantity >= 0;
      ReleaseLinesEffect(rows, ws, wh, prefix, k);
      FindStockSameKeys(ApplyLines(rows, ws, wh, Release, prefix), rows, ws, l.item, wh);
    }
  }

  /** Releasing what was just reserved for an order restores every row. */
  lemma ReleaseUndoesReserve(rows: map<Key, Stock>, ws: seq<WarehouseId>, wh: Option<WarehouseId>, lines: seq<SalesLine>)
    requires forall k | k in rows :: rows[k].reserved >= 0
    requires QuantitiesNonNegative(lines)
    ensures ApplyLines(ApplyLines(rows, ws, wh, Reserve, lines), ws, wh, Release, lines) == rows
  {
    var mid := ApplyLines(rows, ws, wh, Reserve, lines);
    var back := ApplyLines(mid, ws, wh, Release, lines);
    forall k | k in rows
      ensures back[k] == rows[k]
    {
      ReserveLinesEffect(rows, ws, wh, lines, k);
      QuantityOnRowSameKeys(rows, mid, ws, wh, lines, k);
      QuantityOnRowNonNegative(rows, ws, wh, lines, k);
      ReleaseLinesEffect(mid, ws, wh, lines, k);
    }
  }

  /** Releasing a line twice (as cancelling an order does) takes twice its
      quantity off the reservation, and with it reservations other orders
      hold on the same row. */
  lemma DoubleReleaseLosesReservation(s: Stock, q: int, others: int)
    requires q >= 0 && others >= q && s.reserved == q + others
    ensures ApplyToRow(Release, ApplyToRow(Release, s, q), q).reserved == others - q
  {
  }

  /** Reducing a line twice (as shipping an order does) takes twice its
      quantity off the row's stock. */
  lemma DoubleReduceTakesTwice(rows: map<Key, Stock>, ws: seq<WarehouseId>, wh: Option<WarehouseId>, l: SalesLine)
    requires l.quantity >= 0 && FindStock(rows, ws, l.item, wh).Some?
    ensures var k := FindStock(rows, ws, l.item, wh).value;
      ApplyLines(ApplyLines(rows, ws, wh, Reduce, [l]), ws, wh, Reduce, [l])[k].quantity ==
      Max0(rows[k].quantity - 2 * l.quantity)
  {
    var once := ApplyLines(rows, ws, wh, Reduce, [l]);
    assert [l][..0] == [];
    FindStockSameKeys(once, rows, ws, l.item, wh);
  }

  /** Saving a line of a pending order reserves its quantity again each
      time, even when nothing about the line changed. */
  lemma ResaveReservesAgain(rows: map<Key, Stock>, ws: seq<WarehouseId>, wh: Option<WarehouseId>, l: SalesLine)
    requires FindStock(rows, ws, l.item, wh).Some?
    ensures var k := FindStock(rows, ws, l.item, wh).value;
      ApplyLine(ApplyLine(rows, ws, wh, Reserve, l), ws, wh, Reserve, l)[k].reserved == rows[k].reserved + 2 * l.quantity
  {
    FindStockSameKeys(ApplyLine(rows, ws, wh, Reserve, l), rows, ws, l.item, wh);
  }

  /** Deleting a line of a pending order releases what saving it reserved. */
  lemma DeleteUndoesAdd(rows: map<Key, Stock>, ws: seq<WarehouseId>, wh: Option<WarehouseId>, l: SalesLine)
    requires forall k | k in rows :: rows[k].reserved >= 0
    requires l.quantity >= 0
    ensures ApplyLine(ApplyLine(rows, ws, wh, Reserve, l), ws, wh, Release, l) == rows
  {
    FindStockSameKeys(ApplyLine(rows, ws, wh, Reserve, l), rows, ws, l.item, wh);
  }

  /** The line after `reduce_stock`: when it found a row, its shipped quantity
      becomes its ordered quantity. */
  function ShipLine(rows: map<Key, Stock>, ws: seq<WarehouseId>, wh: Option<WarehouseId>, l: SalesLine): (r: SalesLine)
    ensures r == l.(shippedQuantity := r.shippedQuantity)
    ensures FindStock(rows, ws, l.item, wh).Some? ==> r.shippedQuantity == l.quantity
    ensures FindStock(rows, ws, l.item, wh).None? ==> r == l
  {
    if FindStock(rows, ws, l.item, wh).Some? then l.(shippedQuantity := l.quantity) else l
  }

  function ShipLines(rows: map<Key, Stock>, ws: seq<WarehouseId>, wh: Option<WarehouseId>, lines: seq<SalesLine>): (r: seq<SalesLine>)
    ensures |r| == |lines|
    ensures forall j | 0 <= j < |lines| :: r[j] == ShipLine(rows, ws, wh, lines[j])
  {
    seq(|lines|, j requires 0 <= j < |lines| => ShipLine(rows, ws, wh, lines[j]))
  }

  /** Marking lines shipped a second time, against rows with the same keys,
      changes nothing. */
  lemma ShipLinesTwice(rows1: map<Key, Stock>, rows2: map<Key, Stock>, ws: seq<WarehouseId>, wh: Option<WarehouseId>, lines: seq<SalesLine>)
    requires rows1.Keys == rows2.Keys
    ensures ShipLines(rows2, ws, wh, ShipLines(rows1, ws, wh, lines)) == ShipLines(rows1, ws, wh, lines)
  {
    forall j | 0 <= j < |lines| {
      FindStockSameKeys(rows1, rows2, ws, lines[j].item, wh);
    }
  }

  lemma ShipLinesStep(rows: map<Key, Stock>, ws: seq<WarehouseId>, wh: Option<WarehouseId>, lines: seq<SalesLine>, i: nat)
    requires i < |lines|
    ensures (ShipLines(rows, ws, wh, lines[..i]) + lines[i..])[i := ShipLine(rows, ws, wh, lines[i])] ==
      ShipLines(rows, ws, wh, lines[..i + 1]) + lines[i + 1..]
  {
  }

  /** Shipping does not change line totals, so neither the order's sum. */
  lemma ShippedPrefixTotals(rows: map<Key, Stock>, ws: seq<WarehouseId>, wh: Option<WarehouseId>, lines: seq<SalesLine>, i: nat)
    requires i <= |lines|
    ensures SumLineTotals(ShipLines(rows, ws, wh, lines[..i]) + lines[i..]) == SumLineTotals(lines)
  {
    SumLineTotalsPointwise(ShipLines(rows, ws, wh, lines[..i]) + lines[i..], lines);
  }

  /** Some line finds a row. */
  predicate AnyStocked(rows: map<Key, Stock>, ws: seq<WarehouseId>, wh: Option<WarehouseId>, lines: seq<SalesLine>) {
    lines != [] &&
    (AnyStocked(rows, ws, wh, lines[..|lines| - 1]) || FindStock(rows, ws, lines[|lines| - 1].item, wh).Some?)
  }

  lemma AnyStockedStep(rows: map<Key, Stock>, ws: seq<WarehouseId>, wh: Option<WarehouseId>, lines: seq<SalesLine>, i: nat)
    requires i < |lines|
    ensures AnyStocked(rows, ws, wh, lines[..i + 1]) <==>
      AnyStocked(rows, ws, wh, lines[..i]) || FindStock(rows, ws, lines[i].item, wh).Some?
  {
    assert lines[..i + 1][..i] == lines[..i];
  }

  /** Whether some line finds a row depends only on the rows' keys and the
      lines' items. */
  lemma {:induction false} AnyStockedSameItems(rows1: map<Key, Stock>, rows2: map<Key, Stock>, ws: seq<WarehouseId>, wh: Option<WarehouseId>, a: seq<SalesLine>, b: seq<SalesLine>)
    requires rows1.Keys == rows2.Keys && |a| == |b|
    requires forall j | 0 <= j < |a| :: a[j].item == b[j].item
    ensures AnyStocked(rows1, ws, wh, a) == AnyStocked(rows2, ws, wh, b)
  {
    if a != [] {
      var n := |a|;
      AnyStockedSameItems(rows1, rows2, ws, wh, a[..n - 1], b[..n - 1]);
      FindStockSameKeys(rows1, rows2, ws, a[n - 1].item, wh);
    }
  }

  /** Reducing shipped lines a second time leaves the order total where the
      first reduction put it: shipping keeps the line totals and the items. */
  lemma ShippedLinesSameTotal(rows0: map<Key, Stock>, rows1: map<Key, Stock>, ws: seq<WarehouseId>, wh: Option<WarehouseId>, lines: seq<SalesLine>, d: real)
    requires rows0.Keys == rows1.Keys
    ensures AnyStocked(rows1, ws, wh, ShipLines(rows0, ws, wh, lines)) == AnyStocked(rows0, ws, wh, lines)
    ensures OrderTotal(ShipLines(rows0, ws, wh, lines), d) == OrderTotal(lines, d)
  {
    AnyStockedSameItems(rows1, rows0, ws, wh, ShipLines(rows0, ws, wh, lines), lines);
    ShippedPrefixTotals(rows0, ws, wh, lines, |lines|);
    assert lines[..|lines|] == lines && lines[|lines|..] == [];
    assert ShipLines(rows0, ws, wh, lines[..|lines|]) + lines[|lines|..] == ShipLines(rows0, ws, wh, lines);
  }

  /** The stock operations read only each line's item and quantity. */
  lemma {:induction false} ApplyLinesSameItems(rows: map<Key, Stock>, ws: seq<WarehouseId>, wh: Option<WarehouseId>, op: LineOp, a: seq<SalesLine>, b: seq<SalesLine>)
    requires |a| == |b|
    requires forall j | 0 <= j < |a| :: a[j].item == b[j].item && a[j].quantity == b[j].quantity
    ensures ApplyLines(rows, ws, wh, op, a) == ApplyLines(rows, ws, wh, op, b)
  {
    if a != [] {
      var n := |a|;
      ApplyLinesSameItems(rows, ws, wh, op, a[..n - 1], b[..n - 1]);
      var prior := ApplyLines(rows, ws, wh, op, a[..n - 1]);
      SameItemSameEffect(prior, ws, wh, op, a[n - 1], b[n - 1]);
    }
  }

  /** One line's stock effect depends only on its item and quantity. */
  lemma SameItemSameEffect(rows: map<Key, Stock>, ws: seq<WarehouseId>, wh: Option<WarehouseId>, op: LineOp, x: SalesLine, y: SalesLine)
    requires x.item == y.item && x.quantity == y.quantity
    ensures ApplyLine(rows, ws, wh, op, x) == ApplyLine(rows, ws, wh, op, y)
  {
  }

  // ---------------------------------------------------------------------
  // Line queries
  // ---------------------------------------------------------------------

  /** `SalesItem.get_stock(warehouse)`: the row in the given warehouse if
      there is one, else as for the order's warehouse. */
  function GetStock(rows: map<Key, Stock>, ws: seq<WarehouseId>, item: ItemId, warehouse: Option<WarehouseId>, orderWarehouse: Option<WarehouseId>): (r: Option<Key>)
    ensures r.Some? ==> r.value in rows && r.value.0 == item
    ensures warehouse.Some? && (item, warehouse.value) in rows ==> r == Some((item, warehouse.value))
    ensures !(warehouse.Some? && (item, warehouse.value) in rows) ==> r == FindStock(rows, ws, item, orderWarehouse)
    ensures r.None? <==>
      (forall w | w in ws :: (item, w) !in rows) &&
      !(warehouse.Some? && (item, warehouse.value) in rows) && !(orderWarehouse.Some? && (item, orderWarehouse.value) in rows)
  {
    if warehouse.Some? && (item, warehouse.value) in rows then Some((item, warehouse.value))
    else FindStock(rows, ws, item, orderWarehouse)
  }

  datatype Availability = InStock | StockNotFound | Insufficient(available: int, required: int)

  /** `SalesItem.check_stock_availability`: in stock exactly when the row
      found can fulfil the line's quantity by its stored available quantity. */
  function CheckStockAvailability(rows: map<Key, Stock>, ws: seq<WarehouseId>, l: SalesLine, warehouse: Option<WarehouseId>, orderWarehouse: Option<WarehouseId>): (r: Availability)
    ensures r == StockNotFound <==> GetStock(rows, ws, l.item, warehouse, orderWarehouse).None?
    ensures r == InStock <==>
      (GetStock(rows, ws, l.item, warehouse, orderWarehouse).Some? &&
       CanFulfillOrder(rows[GetStock(rows, ws, l.item, warehouse, orderWarehouse).value], l.quantity))
    ensures r.Insufficient? ==> r.required == l.quantity && r.available < r.required
  {
    match GetStock(rows, ws, l.item, warehouse, orderWarehouse)
    case None => StockNotFound
    case Some(k) =>
      if rows[k].available < l.quantity then Insufficient(rows[k].available, l.quantity) else InStock
  }

  /** `SalesItem.get_profit_margin` (before rounding): the markup of the unit
      price over the item's cost, in percent. */
  function ProfitMargin(l: SalesLine, item: Item): (r: real)
    ensures item.costPrice <= 0.0 ==> r == 0.0
    ensures item.costPrice > 0.0 ==> l.unitPrice == item.costPrice * (1.0 + r / 100.0)
  {
    if item.costPrice > 0.0 then (l.unitPrice - item.costPrice) / item.costPrice * 100.0 else 0.0
  }

  /** `SalesItem.get_profit_amount`: for a costed item, the line's cost
      scaled by the margin; a profit exactly when it sells above cost. */
  function ProfitAmount(l: SalesLine, item: Item): (r: real)
    ensures item.costPrice <= 0.0 ==> r == 0.0
    ensures item.costPrice > 0.0 ==> r == l.quantity as real * item.costPrice * ProfitMargin(l, item) / 100.0
    ensures item.costPrice > 0.0 && l.quantity > 0 ==> (r > 0.0 <==> l.unitPrice > item.costPrice)
  {
    if item.costPrice > 0.0 then (l.unitPrice - item.costPrice) * l.quantity as real else 0.0
  }

  /** For a line with a positive quantity and a costed item, the line makes a
      profit exactly when its margin is positive, i.e. it sells above cost. */
  lemma ProfitAgreesWithMargin(l: SalesLine, item: Item)
    requires item.costPrice > 0.0 && l.quantity > 0
    ensures ProfitAmount(l, item) > 0.0 <==> ProfitMargin(l, item) > 0.0
    ensures ProfitMargin(l, item) > 0.0 <==> l.unitPrice > item.costPrice
  {
    var d := l.unitPrice - item.costPrice;
    var q := l.quantity as real;
    if d > 0.0 {
      assert d * q > 0.0;
      assert d / item.costPrice > 0.0;
    } else {
      assert d * q <= 0.0;
      assert d / item.costPrice <= 0.0;
    }
  }

  // ---------------------------------------------------------------------
  // Line-level stock operations
  // ---------------------------------------------------------------------

  /** `SalesItem.reserve_stock`, `release_reserved_stock` and the stock half
      of `reduce_stock`: the operation on the row `get_stock()` finds;
      reports whether there was one. */
  method ApplyLineStock(table: StockTable, l: SalesLine, wh: Option<WarehouseId>, op: LineOp) returns (found: bool)
    requires table.Valid()
    modifies table
    ensures table.Valid() && table.warehouses == old(table.warehouses)
    ensures table.rows == ApplyLine(old(table.rows), table.warehouses, wh, op, l)
    ensures found == FindStock(old(table.rows), table.warehouses, l.item, wh).Some?
  {
    var k := FindStock(table.rows, table.warehouses, l.item, wh);
    found := k.Some?;
    if found {
      var s := table.rows[k.value];
      table.Write(k.value, Updated(op, s, l.quantity), Some(Fields(op)));
    }
  }

  /** Which line operation `SalesOrder.save` runs after moving from the
      stored status `stored` to `status`: reserve on entering PENDING, release
      on entering CANCELLED, reduce on entering SHIPPED or DELIVERED from
      any status other than those two. */
  function SaveHook(stored: Option<SalesStatus>, status: SalesStatus): (r: Option<LineOp>)
    ensures r == Some(Reserve) <==> status == Pending && stored != Some(Pending)
    ensures r == Some(Release) <==> status == Cancelled && stored != Some(Cancelled)
    ensures r == Some(Reduce) <==>
      (status == Shipped || status == Delivered) && stored != Some(Shipped) && stored != Some(Delivered)
    ensures stored == Some(status) ==> r == None
  {
    if stored == Some(status) then None
    else if status == Pending then Some(Reserve)
    else if status == Cancelled then Some(Release)
    else if (status == Shipped || status == Delivered) && stored != Some(Shipped) && stored != Some(Delivered) then Some(Reduce)
    else None
  }

  /** What the profit-and-loss report reads of a sales order. */
  datatype SalesRecord = SalesRecord(orderDate: Date, status: SalesStatus, totalAmount: real)

  /** A `SalesOrder` with its lines. The status held here is always the
      stored one: every status change below is saved at once. */
  class SalesOrder {
    var orderDate: Date
    var status: SalesStatus
    var warehouse: Option<WarehouseId>
    var discountAmount: real
    var totalAmount: real
    var shippedDate: Option<Date>
    var deliveredDate: Option<Date>
    var lines: seq<SalesLine>

    /** `SalesOrder.objects.create(...)`: a new order has no lines yet, so
        the reservation its first save would make is empty. */
    constructor (orderDate: Date, status: SalesStatus, warehouse: Option<WarehouseId>, discountAmount: real)
      ensures this.orderDate == orderDate && this.status == status && this.warehouse == warehouse
      ensures this.discountAmount == discountAmount && totalAmount == 0.0 && lines == []
      ensures shippedDate == None && deliveredDate == None
    {
      this.orderDate := orderDate;
      this.status := status;
      this.warehouse := warehouse;
      this.discountAmount := discountAmount;
      totalAmount := 0.0;
      shippedDate := None;
      deliveredDate := None;
      lines := [];
    }

    function Record(): SalesRecord
      reads this
    {
      SalesRecord(orderDate, status, totalAmount)
    }

    /** `SalesOrder.calculate_total`. */
    method CalculateTotal() returns (total: real)
      modifies this
      ensures total == totalAmount == OrderTotal(lines, discountAmount)
      ensures lines == old(lines) && status == old(status) && warehouse == old(warehouse)
      ensures discountAmount == old(discountAmount) && orderDate == old(orderDate)
      ensures shippedDate == old(shippedDate) && deliveredDate == old(deliveredDate)
    {
      total := Max0Real(SumLineTotals(lines) - discountAmount);
      totalAmount := total;
    }

    /** `SalesItem.save(update_fields=['shipped_quantity'])` on line `i` of
        an order that is not PENDING: only the shipped quantity is stored,
        and the order total is recalculated from the unchanged line totals. */
    method SaveShipped(i: nat, shipped: int)
      requires i < |lines| && status != Pending
      modifies this
      ensures lines == old(lines)[i := old(lines)[i].(shippedQuantity := shipped)]
      ensures totalAmount == OrderTotal(lines, discountAmount) == OrderTotal(old(lines), discountAmount)
      ensures status == old(status) && warehouse == old(warehouse) && discountAmount == old(discountAmount)
      ensures orderDate == old(orderDate) && shippedDate == old(shippedDate) && deliveredDate == old(deliveredDate)
    {
      lines := lines[i := lines[i].(shippedQuantity := shipped)];
      var _ := CalculateTotal();
      SumLineTotalsPointwise(lines, old(lines));
    }

    /** `SalesOrder.reserve_stock`: only a PENDING order reserves. */
    method ReserveStock(table: StockTable)
      requires table.Valid()
      modifies table
      ensures table.Valid() && table.warehouses == old(table.warehouses)
      ensures status == Pending ==> table.rows == ApplyLines(old(table.rows), table.warehouses, warehouse, Reserve, lines)
      ensures status != Pending ==> table.rows == old(table.rows)
    {
      if status == Pending {
        ApplyToAll(table, Reserve);
      }
    }

    /** `SalesOrder.release_reserved_stock`, whatever the status. */
    method ReleaseReservedStock(table: StockTable)
      requires table.Valid()
      modifies table
      ensures table.Valid() && table.warehouses == old(table.warehouses)
      ensures table.rows == ApplyLines(old(table.rows), table.warehouses, warehouse, Release, lines)
    {
      ApplyToAll(table, Release);
    }

    method ApplyToAll(table: StockTable, op: LineOp)
      requires table.Valid()
      modifies table
      ensures table.Valid() && table.warehouses == old(table.warehouses)
      ensures table.rows == ApplyLines(old(table.rows), table.warehouses, warehouse, op, lines)
    {
      var i := 0;
      while i < |lines|
        invariant 0 <= i <= |lines|
        invariant table.Valid() && table.warehouses == old(table.warehouses)
        invariant table.rows == ApplyLines(old(table.rows), table.warehouses, warehouse, op, lines[..i])
      {
        var _ := ApplyLineStock(table, lines[i], warehouse, op);
        ApplyLinesStep(old(table.rows), table.warehouses, warehouse, op, lines, i);
        i := i + 1;
      }
      assert lines[..i] == lines;
    }

    /** `SalesItem.reduce_stock` for line `i`: the row it finds is reduced,
        and then the line is marked shipped in full and saved, which
        recalculates the order total. */
    method ReduceLineStock(table: StockTable, i: nat) returns (found: bool)
      requires i < |lines| && table.Valid()
      modifies this, table
      ensures table.Valid() && table.warehouses == old(table.warehouses)
      ensures status == old(status) && warehouse == old(warehouse) && discountAmount == old(discountAmount)
      ensures orderDate == old(orderDate) && shippedDate == old(shippedDate) && deliveredDate == old(deliveredDate)
      ensures table.rows == ApplyLine(old(table.rows), table.warehouses, warehouse, Reduce, old(lines)[i])
      ensures found == FindStock(old(table.rows), table.warehouses, old(lines)[i].item, warehouse).Some?
      ensures lines == old(lines)[i := ShipLine(old(table.rows), table.warehouses, warehouse, old(lines)[i])]
      ensures found ==> totalAmount == OrderTotal(lines, discountAmount)
      ensures !found ==> totalAmount == old(totalAmount)
    {
      found := ApplyLineStock(table, lines[i], warehouse, Reduce);
      if found {
        lines := lines[i := lines[i].(shippedQuantity := lines[i].quantity)];
        var _ := CalculateTotal();
      }
    }

    /** The state `reduce_stock` has reached after its first `i` lines,
        starting from rows `rows0`, lines `lines0` and total `total0`. */
    ghost predicate ReducedUpTo(table: StockTable, rows0: map<Key, Stock>, lines0: seq<SalesLine>, total0: real, i: nat)
      reads this, table
    {
      && i <= |lines0|
      && table.rows == ApplyLines(rows0, table.warehouses, warehouse, Reduce, lines0[..i])
      && lines == ShipLines(rows0, table.warehouses, warehouse, lines0[..i]) + lines0[i..]
      && totalAmount == if AnyStocked(rows0, table.warehouses, warehouse, lines0[..i])
                        then OrderTotal(lines0, discountAmount) else total0
    }

    /** One turn of the loop in `reduce_stock`. */
    method ReduceNext(table: StockTable, ghost rows0: map<Key, Stock>, ghost lines0: seq<SalesLine>, ghost total0: real, i: nat)
      requires table.Valid() && i < |lines0| && ReducedUpTo(table, rows0, lines0, total0, i)
      requires rows0.Keys == table.rows.Keys
      modifies this, table
      ensures table.Valid() && table.warehouses == old(table.warehouses) && rows0.Keys == table.rows.Keys
      ensures status == old(status) && warehouse == old(warehouse) && discountAmount == old(discountAmount)
      ensures orderDate == old(orderDate) && shippedDate == old(shippedDate) && deliveredDate == old(deliveredDate)
      ensures ReducedUpTo(table, rows0, lines0, total0, i + 1)
    {
      FindStockSameKeys(table.rows, rows0, table.warehouses, lines0[i].item, warehouse);
      assert lines[i] == lines0[i];
      var found := ReduceLineStock(table, i);
      ApplyLinesStep(rows0, table.warehouses, warehouse, Reduce, lines0, i);
      ShipLinesStep(rows0, table.warehouses, warehouse, lines0, i);
      AnyStockedStep(rows0, table.warehouses, warehouse, lines0, i);
      if found {
        ShippedPrefixTotals(rows0, table.warehouses, warehouse, lines0, i + 1);
      }
    }

    /** The loop of `reduce_stock`, from its start to its end. */
    method ReduceLoop(table: StockTable, ghost rows0: map<Key, Stock>, ghost lines0: seq<SalesLine>, ghost total0: real)
      requires table.Valid() && rows0.Keys == table.rows.Keys && |lines| == |lines0|
      requires ReducedUpTo(table, rows0, lines0, total0, 0)
      modifies this, table
      ensures table.Valid() && table.warehouses == old(table.warehouses)
      ensures status == old(status) && warehouse == old(warehouse) && discountAmount == old(discountAmount)
      ensures orderDate == old(orderDate) && shippedDate == old(shippedDate) && deliveredDate == old(deliveredDate)
      ensures ReducedUpTo(table, rows0, lines0, total0, |lines0|)
    {
      var n := |lines|;
      var i := 0;
      while i < n
        invariant 0 <= i <= n == |lines0|
        invariant table.Valid() && table.warehouses == old(table.warehouses) && rows0.Keys == table.rows.Keys
        invariant status == old(status) && warehouse == old(warehouse) && discountAmount == old(discountAmount)
        invariant orderDate == old(orderDate) && shippedDate == old(shippedDate) && deliveredDate == old(deliveredDate)
        invariant ReducedUpTo(table, rows0, lines0, total0, i)
      {
        ReduceNext(table, rows0, lines0, total0, i);
        i := i + 1;
      }
    }

    /** The loop of `reduce_stock`: every line is reduced in turn. */
    method ReduceAllLines(table: StockTable)
      requires table.Valid()
      modifies this, table
      ensures table.Valid() && table.warehouses == old(table.warehouses)
      ensures status == old(status) && warehouse == old(warehouse) && discountAmount == old(discountAmount)
      ensures orderDate == old(orderDate) && shippedDate == old(shippedDate) && deliveredDate == old(deliveredDate)
      ensures table.rows == ApplyLines(old(table.rows), table.warehouses, warehouse, Reduce, old(lines))
      ensures lines == ShipLines(old(table.rows), table.warehouses, warehouse, old(lines))
      ensures totalAmount == if AnyStocked(old(table.rows), table.warehouses, warehouse, old(lines))
                             then OrderTotal(old(lines), discountAmount) else old(totalAmount)
    {
      ghost var rows0, lines0, total0 := table.rows, lines, totalAmount;
      assert lines0[..0] == [] && lines0[0..] == lines0;
      assert ShipLines(rows0, table.warehouses, warehouse, []) == [];
      assert ApplyLines(rows0, table.warehouses, warehouse, Reduce, []) == rows0;
      assert !AnyStocked(rows0, table.warehouses, warehouse, []);
      ReduceLoop(table, rows0, lines0, total0);
      assert lines0[..|lines0|] == lines0 && lines0[|lines0|..] == [];
    }

    /** `SalesOrder.reduce_stock`: for a SHIPPED or DELIVERED order every
        line is reduced; the total is recalculated (from line totals that
        shipping does not change) when some line found a row. */
    method ReduceStock(table: StockTable)
      requires table.Valid()
      modifies this, table
      ensures table.Valid() && table.warehouses == old(table.warehouses)
      ensures status == old(status) && warehouse == old(warehouse) && discountAmount == old(discountAmount)
      ensures orderDate == old(orderDate) && shippedDate == old(shippedDate) && deliveredDate == old(deliveredDate)
      ensures status != Shipped && status != Delivered ==>
        table.rows == old(table.rows) && lines == old(lines) && totalAmount == old(totalAmount)
      ensures status == Shipped || status == Delivered ==>
        && table.rows == ApplyLines(old(table.rows), table.warehouses, warehouse, Reduce, old(lines))
        && lines == ShipLines(old(table.rows), table.warehouses, warehouse, old(lines))
        && totalAmount == if AnyStocked(old(table.rows), table.warehouses, warehouse, old(lines))
                          then OrderTotal(old(lines), discountAmount) else old(totalAmount)
    {
      if status == Shipped || status == Delivered {
        ReduceAllLines(table);
      }
    }

    /** The tail of `SalesOrder.save`: the stock operation for a move from
        the stored status `stored` to the current one. */
    method AfterSave(table: StockTable, stored: Option<SalesStatus>)
      requires table.Valid()
      modifies this, table
      ensures table.Valid() && table.warehouses == old(table.warehouses)
      ensures status == old(status) && warehouse == old(warehouse) && discountAmount == old(discountAmount)
      ensures orderDate == old(orderDate) && shippedDate == old(shippedDate) && deliveredDate == old(deliveredDate)
      ensures SaveHook(stored, status).Some? ==>
        table.rows == ApplyLines(old(table.rows), table.warehouses, warehouse, SaveHook(stored, status).value, old(lines))
      ensures SaveHook(stored, status) != Some(Reduce) ==> lines == old(lines) && totalAmount == old(totalAmount)
      ensures SaveHook(stored, status).None? ==> table.rows == old(table.rows)
      ensures SaveHook(stored, status) == Some(Reduce) ==>
        && lines == ShipLines(old(table.rows), table.warehouses, warehouse, old(lines))
        && totalAmount == if AnyStocked(old(table.rows), table.warehouses, warehouse, old(lines))
                          then OrderTotal(old(lines), discountAmount) else old(totalAmount)
    {
      if stored != Some(status) {
        if status == Pending && stored != Some(Pending) {
          ReserveStock(table);
        } else if status == Cancelled && stored != Some(Cancelled) {
          ReleaseReservedStock(table);
        } else if (status == Shipped || status == Delivered) && stored != Some(Shipped) && stored != Some(Delivered) {
          ReduceStock(table);
        }
      }
    }

    /** `order.status = newStatus; order.save()`. */
    method SetStatus(table: StockTable, newStatus: SalesStatus)
      requires table.Valid()
      modifies this, table
      ensures table.Valid() && table.warehouses == old(table.warehouses)
      ensures status == newStatus && warehouse == old(warehouse) && discountAmount == old(discountAmount)
      ensures orderDate == old(orderDate) && shippedDate == old(shippedDate) && deliveredDate == old(deliveredDate)
      ensures SaveHook(Some(old(status)), newStatus).Some? ==>
        table.rows == ApplyLines(old(table.rows), table.warehouses, warehouse, SaveHook(Some(old(status)), newStatus).value, old(lines))
      ensures SaveHook(Some(old(status)), newStatus).None? ==> table.rows == old(table.rows)
      ensures SaveHook(Some(old(status)), newStatus) != Some(Reduce) ==> lines == old(lines) && totalAmount == old(totalAmount)
      ensures SaveHook(Some(old(status)), newStatus) == Some(Reduce) ==>
        && lines == ShipLines(old(table.rows), table.warehouses, warehouse, old(lines))
        && totalAmount == if AnyStocked(old(table.rows), table.warehouses, warehouse, old(lines))
                          then OrderTotal(old(lines), discountAmount) else old(totalAmount)
    {
      var previous := status;
      status := newStatus;
      AfterSave(table, Some(previous));
    }

    /** `SalesOrder.mark_as_shipped`: from any status but SHIPPED and
        DELIVERED the order becomes SHIPPED and is saved, whose hook reduces
        the stock, and then reduces it a second time. */
    method MarkAsShipped(table: StockTable, today: Date)
      requires table.Valid()
      modifies this, table
      ensures table.Valid() && table.warehouses == old(table.warehouses)
      ensures warehouse == old(warehouse) && discountAmount == old(discountAmount)
      ensures orderDate == old(orderDate) && deliveredDate == old(deliveredDate)
      ensures old(status) == Shipped || old(status) == Delivered ==>
        && status == old(status) && shippedDate == old(shippedDate) && table.rows == old(table.rows)
        && lines == old(lines) && totalAmount == old(totalAmount)
      ensures old(status) != Shipped && old(status) != Delivered ==>
        && status == Shipped && shippedDate == Some(today)
        && table.rows == ApplyLines(ApplyLines(old(table.rows), table.warehouses, warehouse, Reduce, old(lines)),
                                    table.warehouses, warehouse, Reduce, old(lines))
        && lines == ShipLines(old(table.rows), table.warehouses, warehouse, old(lines))
        && totalAmount == if AnyStocked(old(table.rows), table.warehouses, warehouse, old(lines))
                          then OrderTotal(old(lines), discountAmount) else old(totalAmount)
    {
      if status != Shipped && status != Delivered {
        var previous := status;
        status := Shipped;
        shippedDate := Some(today);
        ghost var rows0, lines0 := table.rows, lines;
        AfterSave(table, Some(previous));
        ghost var rows1, lines1 := table.rows, lines;
        ReduceStock(table);
        ApplyLinesSameItems(rows1, table.warehouses, warehouse, Reduce, lines1, lines0);
        ShipLinesTwice(rows0, rows1, table.warehouses, warehouse, lines0);
        ShippedLinesSameTotal(rows0, rows1, table.warehouses, warehouse, lines0, discountAmount);
      }
    }

    /** `SalesOrder.mark_as_delivered`: an order not yet DELIVERED becomes
        DELIVERED and is saved; coming from a status other than SHIPPED the
        save's hook reduces the stock and the method reduces it again, while
        coming from SHIPPED neither does. */
    method MarkAsDelivered(table: StockTable, today: Date)
      requires table.Valid()
      modifies this, table
      ensures table.Valid() && table.warehouses == old(table.warehouses)
      ensures warehouse == old(warehouse) && discountAmount == old(discountAmount)
      ensures orderDate == old(orderDate) && shippedDate == old(shippedDate)
      ensures old(status) == Delivered ==>
        && status == Delivered && deliveredDate == old(deliveredDate) && table.rows == old(table.rows)
        && lines == old(lines) && totalAmount == old(totalAmount)
      ensures old(status) == Shipped ==>
        && status == Delivered && deliveredDate == Some(today) && table.rows == old(table.rows)
        && lines == old(lines) && totalAmount == old(totalAmount)
      ensures old(status) != Shipped && old(status) != Delivered ==>
        && status == Delivered && deliveredDate == Some(today)
        && table.rows == ApplyLines(ApplyLines(old(table.rows), table.warehouses, warehouse, Reduce, old(lines)),
                                    table.warehouses, warehouse, Reduce, old(lines))
        && lines == ShipLines(old(table.rows), table.warehouses, warehouse, old(lines))
        && totalAmount == if AnyStocked(old(table.rows), table.warehouses, warehouse, old(lines))
                          then OrderTotal(old(lines), discountAmount) else old(totalAmount)
    {
      if status != Delivered {
        var previous := status;
        status := Delivered;
        deliveredDate := Some(today);
        ghost var rows0, lines0 := table.rows, lines;
        AfterSave(table, Some(previous));
        if previous != Shipped && previous != Delivered {
          ghost var rows1, lines1 := table.rows, lines;
          ReduceStock(table);
          ApplyLinesSameItems(rows1, table.warehouses, warehouse, Reduce, lines1, lines0);
          ShipLinesTwice(rows0, rows1, table.warehouses, warehouse, lines0);
          ShippedLinesSameTotal(rows0, rows1, table.warehouses, warehouse, lines0, discountAmount);
        }
      }
    }

    /** `SalesOrder.cancel_order`: an order not yet CANCELLED becomes
        CANCELLED and is saved, whose hook releases the reservations, and
        then releases them a second time. */
    method CancelOrder(table: StockTable)
      requires table.Valid()
      modifies this, table
      ensures table.Valid() && table.warehouses == old(table.warehouses) && lines == old(lines)
      ensures warehouse == old(warehouse) && discountAmount == old(discountAmount) && totalAmount == old(totalAmount)
      ensures orderDate == old(orderDate) && shippedDate == old(shippedDate) && deliveredDate == old(deliveredDate)
      ensures old(status) == Cancelled ==> status == Cancelled && table.rows == old(table.rows)
      ensures old(status) != Cancelled ==>
        status == Cancelled &&
        table.rows == ApplyLines(ApplyLines(old(table.rows), table.warehouses, warehouse, Release, lines),
                                 table.warehouses, warehouse, Release, lines)
    {
      if status != Cancelled {
        var previous := status;
        status := Cancelled;
        AfterSave(table, Some(previous));
        ReleaseReservedStock(table);
      }
    }

    /** `SalesItem.save` for line `i` with new values `l`: the line total is
        recomputed, then the order total, and a PENDING order reserves the
        line's quantity on its row (again, if it was reserved before). */
    method SaveLine(table: StockTable, i: nat, l: SalesLine)
      requires i < |lines| && table.Valid()
      modifies this, table
      ensures table.Valid() && table.warehouses == old(table.warehouses)
      ensures lines == old(lines)[i := l.(lineTotal := CalculateLineTotal(l))]
      ensures totalAmount == OrderTotal(lines, discountAmount)
      ensures status == old(status) && warehouse == old(warehouse)
      ensures discountAmount == old(discountAmount) && orderDate == old(orderDate)
      ensures shippedDate == old(shippedDate) && deliveredDate == old(deliveredDate)
      ensures status == Pending ==> table.rows == ApplyLine(old(table.rows), table.warehouses, warehouse, Reserve, lines[i])
      ensures status != Pending ==> table.rows == old(table.rows)
    {
      lines := lines[i := l.(lineTotal := CalculateLineTotal(l))];
      var _ := CalculateTotal();
      if status == Pending {
        var _ := ApplyLineStock(table, lines[i], warehouse, Reserve);
      }
    }

    /** Creating a `SalesItem` on this order: the line is appended and saved. */
    method AddLine(table: StockTable, l: SalesLine)
      requires table.Valid()
      modifies this, table
      ensures table.Valid() && table.warehouses == old(table.warehouses)
      ensures lines == old(lines) + [l.(lineTotal := CalculateLineTotal(l))]
      ensures totalAmount == OrderTotal(lines, discountAmount)
      ensures status == old(status) && warehouse == old(warehouse)
      ensures discountAmount == old(discountAmount) && orderDate == old(orderDate)
      ensures shippedDate == old(shippedDate) && deliveredDate == old(deliveredDate)
      ensures status == Pending ==> table.rows == ApplyLine(old(table.rows), table.warehouses, warehouse, Reserve, lines[|lines| - 1])
      ensures status != Pending ==> table.rows == old(table.rows)
    {
      lines := lines + [l];
      SaveLine(table, |lines| - 1, l);
    }

    /** `SalesItem.delete` for line `i`: a PENDING order releases the line's
        quantity first; the order total is then recalculated. */
    method DeleteLine(table: StockTable, i: nat)
      requires i < |lines| && table.Valid()
      modifies this, table
      ensures table.Valid() && table.warehouses == old(table.warehouses)
      ensures lines == old(lines)[..i] + old(lines)[i + 1..]
      ensures totalAmount == OrderTotal(lines, discountAmount)
      ensures status == old(status) && warehouse == old(warehouse)
      ensures discountAmount == old(discountAmount) && orderDate == old(orderDate)
      ensures shippedDate == old(shippedDate) && deliveredDate == old(deliveredDate)
      ensures status == Pending ==> table.rows == ApplyLine(old(table.rows), table.warehouses, warehouse, Release, old(lines)[i])
      ensures status != Pending ==> table.rows == old(table.rows)
    {
      if status == Pending {
        var _ := ApplyLineStock(table, lines[i], warehouse, Release);
      }
      lines := lines[..i] + lines[i + 1..];
      var _ := CalculateTotal();
    }
  }
}

=== FILE: sales_signals.dfy ===
/** The stock side of selling (backend/sales/signals.py): validating a line
    against the stored available quantities, and the signal-driven decrement
    of stock for lines of shipped or delivered orders. */
module SalesSignals {
  import opened Common
  import opened Inventory
  import StockAlerts
  import opened Sales

  datatype SaleError =
    | NoStockForItem
    | NoStockInWarehouse(warehouse: WarehouseId)
    | InsufficientStock(available: int, requested: int)

  /** `validate_stock_availability`: with a warehouse, the item's row there
      must exist and have enough stored available quantity; without one, the
      stored available quantities of all the item's rows together must
      cover the request. */
  function ValidateStockAvailability(rows: map<Key, Stock>, ws: seq<WarehouseId>, item: ItemId, requested: int, wh: Option<WarehouseId>): (r: Result<(), SaleError>)
    ensures wh.Some? ==> (r.Ok? <==> (item, wh.value) in rows && rows[(item, wh.value)].available >= requested)
    ensures wh.Some? && (item, wh.value) !in rows ==> r == Err(NoStockInWarehouse(wh.value))
    ensures wh.None? ==> (r.Ok? <==> TotalAvailable(rows, ws, item) >= requested)
    ensures r.Err? && r.error.InsufficientStock? ==> r.error.available < r.error.requested == requested
  {
    match wh
    case Some(w) =>
      if (item, w) !in rows then Err(NoStockInWarehouse(w))
      else if rows[(item, w)].available < requested then Err(InsufficientStock(rows[(item, w)].available, requested))
      else Ok(())
    case None =>
      var total := TotalAvailable(rows, ws, item);
      if total < requested then Err(InsufficientStock(total, requested)) else Ok(())
  }

  /** `validate_stock_before_sale`: an update that keeps the line's quantity
      and the order's status is not checked, nor is a line of a CANCELLED
      order; every other line is validated. `previous` holds the stored
      line's quantity and its order's stored status, when the line exists. */
  function ValidateStockBeforeSale(previous: Option<(int, SalesStatus)>, l: SalesLine, status: SalesStatus,
                                   rows: map<Key, Stock>, ws: seq<WarehouseId>, wh: Option<WarehouseId>): (r: Result<(), SaleError>)
    ensures previous == Some((l.quantity, status)) || status == Cancelled ==> r.Ok?
    ensures r.Err? ==> ValidateStockAvailability(rows, ws, l.item, l.quantity, wh).Err?
    ensures previous != Some((l.quantity, status)) && status != Cancelled ==>
      (r.Ok? <==> ValidateStockAvailability(rows, ws, l.item, l.quantity, wh).Ok?)
  {
    if previous == Some((l.quantity, status)) then Ok(())
    else if status == Cancelled then Ok(())
    else ValidateStockAvailability(rows, ws, l.item, l.quantity, wh)
  }

  /** The row `decrease_stock_from_sales_item` works on: the one in the
      order's warehouse (an error when there is none), or without a warehouse
      the item's first row in listing order (an error when it has none). */
  function SaleRow(rows: map<Key, Stock>, ws: seq<WarehouseId>, item: ItemId, wh: Option<WarehouseId>): (r: Result<Key, SaleError>)
    ensures r.Ok? ==> r.value in rows && r.value.0 == item
    ensures wh.Some? ==> (r.Ok? <==> (item, wh.value) in rows) && (r.Ok? ==> r.value == (item, wh.value))
    ensures wh.Some? && r.Err? ==> r.error == NoStockInWarehouse(wh.value)
    ensures wh.None? ==> (r.Ok? <==> FindStock(rows, ws, item, None).Some?) && (r.Ok? ==> Some(r.value) == FindStock(rows, ws, item, None))
    ensures wh.None? && r.Err? ==> r.error == NoStockForItem
  {
    match wh
    case Some(w) => if (item, w) in rows then Ok((item, w)) else Err(NoStockInWarehouse(w))
    case None =>
      match FindStock(rows, ws, item, None)
      case None => Err(NoStockForItem)
      case Some(k) => Ok(k)
  }

  /** The row after the decrement: the reservation is used up first and
      whatever it did not cover comes off the quantity; then the full line
      quantity comes off the quantity again (not below zero), and the row
      is fully saved. */
  function DecreasedRow(s: Stock, q: int): (r: Stock)
    ensures r.Key() == s.Key() && r.minQuantity == s.minQuantity
    ensures r.averageCost == s.averageCost && r.lastRestocked == s.lastRestocked
    ensures r.reserved == if s.reserved >= q then s.reserved - q else 0
    ensures r.quantity == Max0(s.quantity - (if s.reserved >= q then 0 else q - s.reserved) - q)
    ensures r.quantity >= 0 && r.available == Max0(r.quantity - r.reserved)
  {
    var afterReservation :=
      if s.reserved >= q then s.(reserved := s.reserved - q)
      else
        var remaining := q - s.reserved;
        s.(reserved := 0, quantity := s.quantity - remaining);
    Save(afterReservation.(quantity := Max0(afterReservation.quantity - q)))
  }

  /** A sale covered by its reservation takes the line quantity off the
      stock once. */
  lemma ReservedSaleTakesOnce(s: Stock, q: int)
    requires q > 0 && s.reserved >= q && s.quantity >= q
    ensures DecreasedRow(s, q).quantity == s.quantity - q
    ensures DecreasedRow(s, q).reserved == s.reserved - q
  {
  }

  /** A sale with nothing reserved takes the line quantity off the stock
      twice: once for the part the reservation did not cover, once more in
      the unconditional reduction. */
  lemma UnreservedSaleTakesTwice(s: Stock, q: int)
    requires q > 0 && s.reserved == 0 && s.quantity >= 2 * q
    ensures DecreasedRow(s, q).quantity == s.quantity - 2 * q
  {
  }

  /** A sale only partly covered by its reservation takes the uncovered part
      and then the whole line quantity, clamped at zero. */
  lemma PartlyReservedSale(s: Stock, q: int)
    requires 0 < s.reserved < q
    ensures DecreasedRow(s, q).reserved == 0
    ensures s.quantity >= 2 * q - s.reserved ==> DecreasedRow(s, q).quantity == s.quantity - (2 * q - s.reserved)
    ensures s.quantity <= 2 * q - s.reserved ==> DecreasedRow(s, q).quantity == 0
  {
  }

  /** `decrease_stock_from_sales_item` on the stored state: nothing for a
      non-positive quantity; an error when there is no row or its stored
      available quantity is short; otherwise the decremented row, its
      low-stock check, and the line marked shipped in full. */
  function DecreaseLine(st: StockAlerts.StockState, ws: seq<WarehouseId>, l: SalesLine, wh: Option<WarehouseId>)
    : (r: Result<(StockAlerts.StockState, SalesLine), SaleError>)
    ensures l.quantity <= 0 ==> r == Ok((st, l))
    ensures l.quantity > 0 ==>
      (r.Ok? <==> SaleRow(st.rows, ws, l.item, wh).Ok? && st.rows[SaleRow(st.rows, ws, l.item, wh).value].available >= l.quantity)
    ensures r.Ok? ==> r.value.0.rows.Keys == st.rows.Keys && r.value.1 == l.(shippedQuantity := r.value.1.shippedQuantity)
    ensures r.Ok? && l.quantity > 0 ==> r.value.1.shippedQuantity == l.quantity
    ensures r.Ok? && l.quantity > 0 ==>
      var k := SaleRow(st.rows, ws, l.item, wh).value;
      var s := DecreasedRow(st.rows[k], l.quantity);
      r.value.0 == StockAlerts.StockState(st.rows[k := s], StockAlerts.AfterLowStockCheck(st.alerts, s))
    ensures r.Err? && SaleRow(st.rows, ws, l.item, wh).Err? ==> r.error == SaleRow(st.rows, ws, l.item, wh).error
    ensures r.Err? && SaleRow(st.rows, ws, l.item, wh).Ok? ==>
      r.error == InsufficientStock(st.rows[SaleRow(st.rows, ws, l.item, wh).value].available, l.quantity)
  {
    if l.quantity <= 0 then Ok((st, l))
    else
      match SaleRow(st.rows, ws, l.item, wh)
      case Err(e) => Err(e)
      case Ok(k) =>
        var stock := st.rows[k];
        if stock.available < l.quantity then Err(InsufficientStock(stock.available, l.quantity))
        else
          var s := DecreasedRow(stock, l.quantity);
          Ok((StockAlerts.StockState(st.rows[k := s], StockAlerts.AfterLowStockCheck(st.alerts, s)), l.(shippedQuantity := l.quantity)))
  }

  /** For an order with a warehouse, a line passes validation exactly when
      its decrement succeeds on the same stored state. */
  lemma DecreaseAgreesWithValidation(st: StockAlerts.StockState, ws: seq<WarehouseId>, l: SalesLine, w: WarehouseId)
    requires l.quantity > 0
    ensures DecreaseLine(st, ws, l, Some(w)).Ok? <==> ValidateStockAvailability(st.rows, ws, l.item, l.quantity, Some(w)).Ok?
  {
  }

  /** For an order without a warehouse the two disagree: validation sums the
      available quantity over all the item's rows, the decrement looks only
      at its first row. */
  lemma ValidationCanPassWhileDecreaseFails()
    ensures var a := Stock(1, 10, 5, 0, 5, 0, 0.0, None);
      var b := Stock(1, 20, 5, 0, 5, 0, 0.0, None);
      var rows := map[(1, 10) := a, (1, 20) := b];
      var l := SalesLine(1, 8, 1.0, 0.0, 8.0, 0);
      ValidateStockAvailability(rows, [10, 20], 1, 8, None).Ok? &&
      DecreaseLine(StockAlerts.StockState(rows, []), [10, 20], l, None) == Err(InsufficientStock(5, 8))
  {
    var a := Stock(1, 10, 5, 0, 5, 0, 0.0, None);
    var b := Stock(1, 20, 5, 0, 5, 0, 0.0, None);
    var rows := map[(1, 10) := a, (1, 20) := b];
    assert ItemWarehouses(rows, [10, 20], 1) == [10, 20] by {
      assert [10, 20][1..] == [20];
      assert ItemWarehouses(rows, [20], 1) == [20] by {
        assert [20][1..] == [];
      }
    }
    assert TotalAvailable(rows, [10, 20], 1) == 10 by {
      assert [10, 20][1..] == [20];
      assert [20][1..] == [];
      assert TotalAvailable(rows, [], 1) == 0;
      assert TotalAvailable(rows, [20], 1) == 5;
    }
  }

  /** A decrement keeps at most one pending alert per row. */
  lemma DecreaseKeepsAlerts(st: StockAlerts.StockState, ws: seq<WarehouseId>, l: SalesLine, wh: Option<WarehouseId>)
    requires StockAlerts.AtMostOnePending(st.alerts)
    ensures DecreaseLine(st, ws, l, wh).Ok? ==> StockAlerts.AtMostOnePending(DecreaseLine(st, ws, l, wh).value.0.alerts)
  {
    if l.quantity > 0 && SaleRow(st.rows, ws, l.item, wh).Ok? {
      var k := SaleRow(st.rows, ws, l.item, wh).value;
      StockAlerts.LowStockCheck(st.alerts, DecreasedRow(st.rows[k], l.quantity));
    }
  }

  /** The state after decrementing lines one after the other, the lines as
      then stored, the error that stopped the run, if any, and whether some
      line was saved (which recalculates the order total): the lines before
      the failing one stay decremented. */
  datatype Outcome = Outcome(state: StockAlerts.StockState, lines: seq<SalesLine>, error: Option<SaleError>, saved: bool)

  function DecreaseLines(st: StockAlerts.StockState, ws: seq<WarehouseId>, wh: Option<WarehouseId>, lines: seq<SalesLine>): (o: Outcome)
    ensures |o.lines| == |lines|
  {
    if lines == [] then Outcome(st, [], None, false)
    else
      var prior := DecreaseLines(st, ws, wh, lines[..|lines| - 1]);
      var l := lines[|lines| - 1];
      if prior.error.Some? then Outcome(prior.state, prior.lines + [l], prior.error, prior.saved)
      else
        match DecreaseLine(prior.state, ws, l, wh)
        case Err(e) => Outcome(prior.state, prior.lines + [l], Some(e), prior.saved)
        case Ok(r) => Outcome(r.0, prior.lines + [r.1], None, prior.saved || l.quantity > 0)
  }

  /** The run changes the lines' shipped quantities and nothing else of them. */
  lemma {:induction false} DecreaseLinesKeepsLines(st: StockAlerts.StockState, ws: seq<WarehouseId>, wh: Option<WarehouseId>, lines: seq<SalesLine>)
    ensures var o := DecreaseLines(st, ws, wh, lines);
      forall j | 0 <= j < |lines| :: o.lines[j] == lines[j].(shippedQuantity := o.lines[j].shippedQuantity)
  {
    if lines != [] {
      DecreaseLinesKeepsLines(st, ws, wh, lines[..|lines| - 1]);
    }
  }

  /** A run part-way through leaves the order total what it was: the
      decrement changes only shipped quantities. */
  lemma PartialRunTotal(st: StockAlerts.StockState, ws: seq<WarehouseId>, wh: Option<WarehouseId>, lines: seq<SalesLine>, i: nat, d: real)
    requires i <= |lines|
    ensures OrderTotal(DecreaseLines(st, ws, wh, lines[..i]).lines + lines[i..], d) == OrderTotal(lines, d)
  {
    var a := DecreaseLines(st, ws, wh, lines[..i]).lines + lines[i..];
    DecreaseLinesKeepsLines(st, ws, wh, lines[..i]);
    forall j | 0 <= j < |a|
      ensures a[j].lineTotal == lines[j].lineTotal
    {
      if j < i {
        assert lines[..i][j] == lines[j];
      } else {
        assert a[j] == lines[i..][j - i];
      }
    }
    SumLineTotalsPointwise(a, lines);
  }

  lemma DecreaseLinesStep(st: StockAlerts.StockState, ws: seq<WarehouseId>, wh: Option<WarehouseId>, lines: seq<SalesLine>, i: nat)
    requires i < |lines| && DecreaseLines(st, ws, wh, lines[..i]).error.None?
    ensures var prior := DecreaseLines(st, ws, wh, lines[..i]);
      DecreaseLines(st, ws, wh, lines[..i + 1]) ==
        match DecreaseLine(prior.state, ws, lines[i], wh)
        case Err(e) => Outcome(prior.state, prior.lines + [lines[i]], Some(e), prior.saved)
        case Ok(r) => Outcome(r.0, prior.lines + [r.1], None, prior.saved || lines[i].quantity > 0)
  {
    assert lines[..i + 1][..i] == lines[..i];
  }

  /** Once a line fails, the remaining lines are left as they are. */
  lemma {:induction false} DecreaseLinesStops(st: StockAlerts.StockState, ws: seq<WarehouseId>, wh: Option<WarehouseId>, lines: seq<SalesLine>, i: nat)
    requires i <= |lines| && DecreaseLines(st, ws, wh, lines[..i]).error.Some?
    ensures DecreaseLines(st, ws, wh, lines) ==
      var o := DecreaseLines(st, ws, wh, lines[..i]);
      Outcome(o.state, o.lines + lines[i..], o.error, o.saved)
  {
    if i == |lines| {
      assert lines[..i] == lines;
      assert lines[i..] == [];
    } else {
      var prefix := lines[..|lines| - 1];
      assert prefix[..i] == lines[..i];
      DecreaseLinesStops(st, ws, wh, prefix, i);
      assert prefix[i..] + [lines[|lines| - 1]] == lines[i..];
    }
  }

  /** A failing line ends the run: the state is the one before it, and it
      and the lines after it are left as they are. */
  lemma FailureStopsRun(st: StockAlerts.StockState, ws: seq<WarehouseId>, wh: Option<WarehouseId>, lines: seq<SalesLine>, i: nat)
    requires i < |lines| && DecreaseLines(st, ws, wh, lines[..i]).error.None?
    requires DecreaseLine(DecreaseLines(st, ws, wh, lines[..i]).state, ws, lines[i], wh).Err?
    ensures var prior := DecreaseLines(st, ws, wh, lines[..i]);
      DecreaseLines(st, ws, wh, lines) ==
        Outcome(prior.state, prior.lines + lines[i..], Some(DecreaseLine(prior.state, ws, lines[i], wh).error), prior.saved)
  {
    var prior := DecreaseLines(st, ws, wh, lines[..i]);
    var e := DecreaseLine(prior.state, ws, lines[i], wh).error;
    var failed := Outcome(prior.state, prior.lines + [lines[i]], Some(e), prior.saved);
    assert DecreaseLines(st, ws, wh, lines[..i + 1]) == failed by {
      DecreaseLinesStep(st, ws, wh, lines, i);
    }
    DecreaseLinesStops(st, ws, wh, lines, i + 1);
    assert lines[i..] == [lines[i]] + lines[i + 1..];
    assert failed.lines + lines[i + 1..] == prior.lines + lines[i..];
  }

  /** The decrement never drives a row's quantity below zero, whatever the
      lines. */
  lemma {:induction false} DecreaseLinesKeepsQuantities(st: StockAlerts.StockState, ws: seq<WarehouseId>, wh: Option<WarehouseId>, lines: seq<SalesLine>)
    requires forall k | k in st.rows :: st.rows[k].quantity >= 0
    ensures var o := DecreaseLines(st, ws, wh, lines);
      o.state.rows.Keys == st.rows.Keys && forall k | k in o.state.rows :: o.state.rows[k].quantity >= 0
  {
    if lines != [] {
      DecreaseLinesKeepsQuantities(st, ws, wh, lines[..|lines| - 1]);
    }
  }

  /** `decrease_stock_from_sales_item`. */
  method DecreaseStockFromSalesItem(table: StockTable, book: StockAlerts.AlertBook, l: SalesLine, wh: Option<WarehouseId>)
    returns (r: Result<SalesLine, SaleError>)
    requires table.Valid() && book.Valid()
    modifies table, book
    ensures table.Valid() && book.Valid() && table.warehouses == old(table.warehouses)
    ensures var d := DecreaseLine(StockAlerts.StockState(old(table.rows), old(book.alerts)), table.warehouses, l, wh);
      && (d.Ok? ==> r == Ok(d.value.1) && StockAlerts.StockState(table.rows, book.alerts) == d.value.0)
      && (d.Err? ==> r == Err(d.error) && table.rows == old(table.rows) && book.alerts == old(book.alerts))
  {
    if l.quantity <= 0 {
      return Ok(l);
    }
    var k: Key;
    if wh.None? {
      var first := FindStock(table.rows, table.warehouses, l.item, None);
      if first.None? {
        return Err(NoStockForItem);
      }
      k := first.value;
    } else {
      k := (l.item, wh.value);
      if k !in table.rows {
        return Err(NoStockInWarehouse(wh.value));
      }
    }
    assert SaleRow(table.rows, table.warehouses, l.item, wh) == Ok(k);
    var stock := table.rows[k];
    if stock.available < l.quantity {
      return Err(InsufficientStock(stock.available, l.quantity));
    }
    ghost var before := stock;
    if stock.reserved >= l.quantity {
      stock := stock.(reserved := stock.reserved - l.quantity);
    } else {
      var remaining := l.quantity - stock.reserved;
      stock := stock.(reserved := 0, quantity := stock.quantity - remaining);
    }
    stock := stock.(quantity := Max0(stock.quantity - l.quantity));
    assert Save(stock) == DecreasedRow(before, l.quantity);
    table.Write(k, stock, None);
    book.CheckAndSendLowStockAlert(table.rows[k]);
    r := Ok(l.(shippedQuantity := l.quantity));
  }

  /** `decrease_stock_on_sale`, run after every save of the line at `i`:
      the line is decremented only while its order is SHIPPED or DELIVERED.
      A decrement of a positive quantity saves the line, and that save
      recalculates the order total. */
  method DecreaseStockOnSale(order: SalesOrder, i: nat, table: StockTable, book: StockAlerts.AlertBook)
    returns (error: Option<SaleError>)
    requires i < |order.lines| && table.Valid() && book.Valid()
    modifies order, table, book
    ensures table.Valid() && book.Valid() && table.warehouses == old(table.warehouses)
    ensures order.status == old(order.status) && order.warehouse == old(order.warehouse)
    ensures order.discountAmount == old(order.discountAmount) && order.orderDate == old(order.orderDate)
    ensures order.shippedDate == old(order.shippedDate) && order.deliveredDate == old(order.deliveredDate)
    ensures order.status != Shipped && order.status != Delivered ==>
      && table.rows == old(table.rows) && book.alerts == old(book.alerts) && order.lines == old(order.lines)
      && order.totalAmount == old(order.totalAmount) && error.None?
    ensures order.status == Shipped || order.status == Delivered ==>
      var d := DecreaseLine(StockAlerts.StockState(old(table.rows), old(book.alerts)), table.warehouses, old(order.lines)[i], order.warehouse);
      && (d.Ok? ==> error.None? && StockAlerts.StockState(table.rows, book.alerts) == d.value.0
                    && order.lines == old(order.lines)[i := d.value.1]
                    && order.totalAmount == if old(order.lines)[i].quantity > 0
                                            then OrderTotal(old(order.lines), order.discountAmount) else old(order.totalAmount))
      && (d.Err? ==> error == Some(d.error) && table.rows == old(table.rows) && book.alerts == old(book.alerts)
                     && order.lines == old(order.lines) && order.totalAmount == old(order.totalAmount))
  {
    error := None;
    if order.status == Shipped || order.status == Delivered {
      var q := order.lines[i].quantity;
      var r := DecreaseStockFromSalesItem(table, book, order.lines[i], order.warehouse);
      if r.Err? {
        error := Some(r.error);
      } else if q > 0 {
        order.SaveShipped(i, q);
      }
    }
  }

  /** The state `update_stock_on_order_status_change` has reached after its
      first `i` lines without a failure, starting from `st0`, `lines0` and
      the order total `total0`: the stock state `st`, the lines `lines` and
      the order total `total`. */
  ghost predicate RunUpTo(st0: StockAlerts.StockState, ws: seq<WarehouseId>, wh: Option<WarehouseId>, lines0: seq<SalesLine>,
                          total0: real, discount: real, i: nat, st: StockAlerts.StockState, lines: seq<SalesLine>, total: real)
  {
    && i <= |lines0|
    && var prior := DecreaseLines(st0, ws, wh, lines0[..i]);
    && prior.error.None?
    && st == prior.state
    && lines == prior.lines + lines0[i..]
    && total == if prior.saved then OrderTotal(lines0, discount) else total0
  }

  /** A line that decrements moves the run one line on; its save, for a
      positive quantity, recalculates the total from unchanged line totals. */
  lemma RunStepOk(st0: StockAlerts.StockState, ws: seq<WarehouseId>, wh: Option<WarehouseId>, lines0: seq<SalesLine>,
                  total0: real, discount: real, i: nat, st: StockAlerts.StockState, lines: seq<SalesLine>, total: real)
    requires i < |lines0| && RunUpTo(st0, ws, wh, lines0, total0, discount, i, st, lines, total)
    requires DecreaseLine(st, ws, lines0[i], wh).Ok?
    ensures var r := DecreaseLine(st, ws, lines0[i], wh).value;
      RunUpTo(st0, ws, wh, lines0, total0, discount, i + 1, r.0, lines[i := r.1],
              if lines0[i].quantity > 0 then OrderTotal(lines, discount) else total)
  {
    var prior := DecreaseLines(st0, ws, wh, lines0[..i]);
    var r := DecreaseLine(st, ws, lines0[i], wh).value;
    assert lines[i := r.1] == prior.lines + [r.1] + lines0[i + 1..];
    assert DecreaseLines(st0, ws, wh, lines0[..i + 1]) ==
      Outcome(r.0, prior.lines + [r.1], None, prior.saved || lines0[i].quantity > 0) by {
      DecreaseLinesStep(st0, ws, wh, lines0, i);
    }
    PartialRunTotal(st0, ws, wh, lines0, i, discount);
  }

  /** A line that fails ends the run where it stands. */
  lemma RunStepErr(st0: StockAlerts.StockState, ws: seq<WarehouseId>, wh: Option<WarehouseId>, lines0: seq<SalesLine>,
                   total0: real, discount: real, i: nat, st: StockAlerts.StockState, lines: seq<SalesLine>, total: real)
    requires i < |lines0| && RunUpTo(st0, ws, wh, lines0, total0, discount, i, st, lines, total)
    requires DecreaseLine(st, ws, lines0[i], wh).Err?
    ensures var o := DecreaseLines(st0, ws, wh, lines0);
      && o.state == st && o.lines == lines && o.error == Some(DecreaseLine(st, ws, lines0[i], wh).error)
      && total == if o.saved then OrderTotal(lines0, discount) else total0
  {
    FailureStopsRun(st0, ws, wh, lines0, i);
  }

  /** `RunUpTo` for the stored state of the order, the rows and the alerts. */
  ghost predicate DecreasedUpTo(order: SalesOrder, table: StockTable, book: StockAlerts.AlertBook,
                                st0: StockAlerts.StockState, lines0: seq<SalesLine>, total0: real, i: nat)
    reads order, table, book
  {
    RunUpTo(st0, table.warehouses, order.warehouse, lines0, total0, order.discountAmount, i,
            StockAlerts.StockState(table.rows, book.alerts), order.lines, order.totalAmount)
  }

  /** One turn of the loop in `update_stock_on_order_status_change`. */
  method DecreaseNext(order: SalesOrder, table: StockTable, book: StockAlerts.AlertBook,
                      ghost st0: StockAlerts.StockState, ghost lines0: seq<SalesLine>, ghost total0: real, i: nat)
    returns (error: Option<SaleError>)
    requires table.Valid() && book.Valid() && i < |lines0| && DecreasedUpTo(order, table, book, st0, lines0, total0, i)
    requires order.status == Shipped || order.status == Delivered
    modifies order, table, book
    ensures table.Valid() && book.Valid() && table.warehouses == old(table.warehouses)
    ensures order.status == old(order.status) && order.warehouse == old(order.warehouse)
    ensures order.discountAmount == old(order.discountAmount) && order.orderDate == old(order.orderDate)
    ensures order.shippedDate == old(order.shippedDate) && order.deliveredDate == old(order.deliveredDate)
    ensures error.None? ==> DecreasedUpTo(order, table, book, st0, lines0, total0, i + 1)
    ensures error.Some? ==>
      var o := DecreaseLines(st0, table.warehouses, order.warehouse, lines0);
      && StockAlerts.StockState(table.rows, book.alerts) == o.state && order.lines == o.lines && error == o.error
      && order.totalAmount == if o.saved then OrderTotal(lines0, order.discountAmount) else total0
  {
    var ws, wh := table.warehouses, order.warehouse;
    ghost var st := StockAlerts.StockState(table.rows, book.alerts);
    ghost var lines, total := order.lines, order.totalAmount;
    assert lines[i] == lines0[i] by {
      assert lines0[i..][0] == lines0[i];
    }
    var q := order.lines[i].quantity;
    var r := DecreaseStockFromSalesItem(table, book, order.lines[i], wh);
    if r.Err? {
      error := Some(r.error);
      RunStepErr(st0, ws, wh, lines0, total0, order.discountAmount, i, st, lines, total);
    } else {
      error := None;
      if q > 0 {
        order.SaveShipped(i, q);
      }
      assert order.lines == lines[i := r.value];
      RunStepOk(st0, ws, wh, lines0, total0, order.discountAmount, i, st, lines, total);
    }
  }

  /** `update_stock_on_order_status_change`, run after every save of a
      SHIPPED or DELIVERED order: each line is decremented in turn, and the
      first failure stops the run with its error. Each line decremented
      with a positive quantity is saved, which recalculates the order
      total. */
  method UpdateStockOnOrderStatusChange(order: SalesOrder, table: StockTable, book: StockAlerts.AlertBook)
    returns (error: Option<SaleError>)
    requires table.Valid() && book.Valid()
    modifies order, table, book
    ensures table.Valid() && book.Valid() && table.warehouses == old(table.warehouses)
    ensures order.status == old(order.status) && order.warehouse == old(order.warehouse)
    ensures order.discountAmount == old(order.discountAmount) && order.orderDate == old(order.orderDate)
    ensures order.shippedDate == old(order.shippedDate) && order.deliveredDate == old(order.deliveredDate)
    ensures order.status != Shipped && order.status != Delivered ==>
      && table.rows == old(table.rows) && book.alerts == old(book.alerts) && order.lines == old(order.lines)
      && order.totalAmount == old(order.totalAmount) && error.None?
    ensures order.status == Shipped || order.status == Delivered ==>
      var o := DecreaseLines(StockAlerts.StockState(old(table.rows), old(book.alerts)), table.warehouses, order.warehouse, old(order.lines));
      && StockAlerts.StockState(table.rows, book.alerts) == o.state && order.lines == o.lines && error == o.error
      && order.totalAmount == if o.saved then OrderTotal(old(order.lines), order.discountAmount) else old(order.totalAmount)
  {
    error := None;
    if order.status != Shipped && order.status != Delivered {
      return;
    }
    ghost var st0 := StockAlerts.StockState(table.rows, book.alerts);
    ghost var lines0 := order.lines;
    ghost var total0 := order.totalAmount;
    assert lines0[..0] == [] && lines0[0..] == lines0;
    var i := 0;
    while i < |order.lines|
      invariant 0 <= i <= |order.lines| == |lines0|
      invariant table.Valid() && book.Valid() && table.warehouses == old(table.warehouses)
      invariant order.status == old(order.status) && order.warehouse == old(order.warehouse)
      invariant order.discountAmount == old(order.discountAmount) && order.orderDate == old(order.orderDate)
      invariant order.shippedDate == old(order.shippedDate) && order.deliveredDate == old(order.deliveredDate)
      invariant DecreasedUpTo(order, table, book, st0, lines0, total0, i) && error.None?
    {
      error := DecreaseNext(order, table, book, st0, lines0, total0, i);
      if error.Some? {
        return;
      }
      i := i + 1;
    }
    assert lines0[..i] == lines0 && lines0[i..] == [];
  }
}

=== FILE: strings.dfy ===
/** Python's `sep.join(parts)` and the "keep the non-empty fields" filter that
    the address formatters apply before joining. */
module Strings {
  import opened Common

  /** `sep.join(parts)`: the parts in order, with `sep` between neighbours. */
  function Join(parts: seq<string>, sep: string): (r: string)
    ensures parts == [] ==> r == ""
    ensures |parts| == 1 ==> r == parts[0]
  {
    if |parts| == 0 then ""
    else if |parts| == 1 then parts[0]
    else parts[0] + sep + Join(parts[1..], sep)
  }

  /** Appending one more part appends the separator and that part. */
  lemma {:induction false} JoinSnoc(parts: seq<string>, last: string, sep: string)
    requires parts != []
    ensures Join(parts + [last], sep) == Join(parts, sep) + sep + last
  {
    if |parts| == 1 {
      assert parts + [last] == [parts[0], last];
      assert [parts[0], last][1..] == [last];
    } else {
      assert (parts + [last])[1..] == parts[1..] + [last];
      JoinSnoc(parts[1..], last, sep);
    }
  }

  /** A joined non-empty list ends with its last part. */
  lemma JoinEndsWithLast(parts: seq<string>, sep: string)
    requires parts != []
    ensures var r := Join(parts, sep); var x := parts[|parts| - 1];
      |x| <= |r| && r[|r| - |x|..] == x
  {
    var x := parts[|parts| - 1];
    if |parts| > 1 {
      var init := parts[..|parts| - 1];
      assert parts == init + [x];
      JoinSnoc(init, x, sep);
    }
  }

  /** Python truthiness of an optional text column: neither None nor "". */
  predicate Present(field: Option<string>) {
    field.Some? && field.value != ""
  }

  /** The part a field contributes: its text when present, nothing otherwise. */
  function Part(field: Option<string>): (r: seq<string>)
    ensures |r| <= 1 && (r != [] <==> Present(field))
  {
    if Present(field) then [field.value] else []
  }

  /** The present fields, in their original order. */
  function NonEmpty(fields: seq<Option<string>>): (parts: seq<string>)
    ensures |parts| <= |fields|
  {
    if fields == [] then []
    else Part(fields[0]) + NonEmpty(fields[1..])
  }

  /** How many fields are present. */
  function CountPresent(fields: seq<Option<string>>): nat {
    if fields == [] then 0
    else (if Present(fields[0]) then 1 else 0) + CountPresent(fields[1..])
  }

  /** The filter keeps exactly one part per present field. */
  lemma {:induction false} NonEmptyCount(fields: seq<Option<string>>)
    ensures |NonEmpty(fields)| == CountPresent(fields)
  {
    if fields != [] {
      NonEmptyCount(fields[1..]);
    }
  }

  /** Filtering a list that ends with a present field keeps that field last. */
  lemma {:induction false} NonEmptyLast(fields: seq<Option<string>>)
    requires fields != [] && Present(fields[|fields| - 1])
    ensures NonEmpty(fields) != []
    ensures NonEmpty(fields)[|NonEmpty(fields)| - 1] == fields[|fields| - 1].value
  {
    if |fields| > 1 {
      assert fields[1..][|fields[1..]| - 1] == fields[|fields| - 1];
      NonEmptyLast(fields[1..]);
    }
  }

  /** With no present field the filter keeps nothing. */
  lemma {:induction false} NonEmptyNone(fields: seq<Option<string>>)
    requires forall i | 0 <= i < |fields| :: !Present(fields[i])
    ensures NonEmpty(fields) == []
  {
    if fields != [] {
      NonEmptyNone(fields[1..]);
    }
  }

  /** With exactly the field at `k` present, the filter keeps just that field. */
  lemma {:induction false} NonEmptyOnly(fields: seq<Option<string>>, k: nat)
    requires k < |fields| && Present(fields[k])
    requires forall i | 0 <= i < |fields| && i != k :: !Present(fields[i])
    ensures NonEmpty(fields) == [fields[k].value]
  {
    if k == 0 {
      NonEmptyNone(fields[1..]);
    } else {
      NonEmptyOnly(fields[1..], k - 1);
    }
  }
  /** The filter sees a field only through its part: fields that are
      absent in the same places and equal where present filter alike. */
  lemma {:induction false} NonEmptySameParts(a: seq<Option<string>>, b: seq<Option<string>>)
    requires |a| == |b| && forall i | 0 <= i < |a| :: Part(a[i]) == Part(b[i])
    ensures NonEmpty(a) == NonEmpty(b)
  {
    if a != [] {
      NonEmptySameParts(a[1..], b[1..]);
    }
  }

  /** Filtering one more field appends that field's part. */
  lemma {:induction false} NonEmptySnoc(fields: seq<Option<string>>, f: Option<string>)
    ensures NonEmpty(fields + [f]) == NonEmpty(fields) + Part(f)
  {
    if fields == [] {
      assert [f][1..] == [];
    } else {
      assert (fields + [f])[1..] == fields[1..] + [f];
      NonEmptySnoc(fields[1..], f);
    }
  }

  /** Filtering one field further along a list appends that field's part. */
  lemma PrefixStep(fields: seq<Option<string>>, k: nat)
    requires k < |fields|
    ensures NonEmpty(fields[..k + 1]) == NonEmpty(fields[..k]) + Part(fields[k])
  {
    assert fields[..k + 1] == fields[..k] + [fields[k]];
    NonEmptySnoc(fields[..k], fields[k]);
  }

  /** `if field: parts.append(field)`. */
  method AppendIfPresent(parts: seq<string>, field: Option<string>) returns (r: seq<string>)
    ensures r == parts + Part(field)
  {
    r := parts;
    if Present(field) {
      r := r + [field.value];
    }
  }

  /** The filter over two fields, spelled out. */
  lemma NonEmptyOfTwo(fields: seq<Option<string>>)
    requires |fields| == 2
    ensures NonEmpty(fields) == [] + Part(fields[0]) + Part(fields[1])
  {
    assert fields[..0] == [];
    PrefixStep(fields, 0);
    PrefixStep(fields, 1);
    assert fields[..2] == fields;
  }

  /** The filter over five fields, spelled out. */
  lemma NonEmptyOfFive(fields: seq<Option<string>>)
    requires |fields| == 5
    ensures NonEmpty(fields) == [] + Part(fields[0]) + Part(fields[1]) + Part(fields[2]) + Part(fields[3]) + Part(fields[4])
  {
    assert NonEmpty(fields[..0]) == [] by { assert fields[..0] == []; }
    assert NonEmpty(fields[..1]) == [] + Part(fields[0]) by { PrefixStep(fields, 0); }
    assert NonEmpty(fields[..2]) == [] + Part(fields[0]) + Part(fields[1]) by { PrefixStep(fields, 1); }
    assert NonEmpty(fields[..3]) == [] + Part(fields[0]) + Part(fields[1]) + Part(fields[2]) by { PrefixStep(fields, 2); }
    assert NonEmpty(fields[..4]) == [] + Part(fields[0]) + Part(fields[1]) + Part(fields[2]) + Part(fields[3]) by { PrefixStep(fields, 3); }
    PrefixStep(fields, 4);
    assert fields[..5] == fields;
  }
}

=== FILE: vendors.dfy ===
/** Vendor address formatting (backend/vendors/models.py). */
module Vendors {
  import opened Common
  import opened Strings

  /** The address columns of a `Vendor`; only `country` is a required column. */
  datatype Vendor = Vendor(
    address: Option<string>,
    city: Option<string>,
    state: Option<string>,
    postalCode: Option<string>,
    country: string)

  /** The columns `get_full_address` considers, in the order it joins them. */
  function FullAddressFields(v: Vendor): (fields: seq<Option<string>>)
    ensures |fields| == 5 && fields[4] == Some(v.country)
  {
    [v.address, v.city, v.state, v.postalCode, Some(v.country)]
  }

  /** The formatted address `get_full_address` returns. */
  function FullAddress(v: Vendor): string {
    Join(NonEmpty(FullAddressFields(v)), ", ")
  }

  /** `Vendor.get_full_address`: the non-empty address parts joined by ", ". */
  method GetFullAddress(v: Vendor) returns (r: string)
    ensures r == FullAddress(v)
  {
    ghost var fields := FullAddressFields(v);
    var parts: seq<string> := [];
    parts := AppendIfPresent(parts, v.address);
    parts := AppendIfPresent(parts, v.city);
    parts := AppendIfPresent(parts, v.state);
    parts := AppendIfPresent(parts, v.postalCode);
    parts := AppendIfPresent(parts, Some(v.country));
    NonEmptyOfFive(fields);
    r := if parts != [] then Join(parts, ", ") else "";
  }

  /** Two vendors whose columns contribute the same parts have the same
      address. */
  lemma SamePartsSameAddress(a: Vendor, b: Vendor)
    requires Part(a.address) == Part(b.address) && Part(a.city) == Part(b.city)
    requires Part(a.state) == Part(b.state) && Part(a.postalCode) == Part(b.postalCode)
    requires a.country == b.country
    ensures FullAddress(a) == FullAddress(b)
  {
    NonEmptySameParts(FullAddressFields(a), FullAddressFields(b));
  }

  /** A NULL column and an empty one format alike, for each of the four
      nullable columns. */
  lemma NullIsBlank(v: Vendor)
    ensures FullAddress(v.(address := None)) == FullAddress(v.(address := Some("")))
    ensures FullAddress(v.(city := None)) == FullAddress(v.(city := Some("")))
    ensures FullAddress(v.(state := None)) == FullAddress(v.(state := Some("")))
    ensures FullAddress(v.(postalCode := None)) == FullAddress(v.(postalCode := Some("")))
  {
    SamePartsSameAddress(v.(address := None), v.(address := Some("")));
    SamePartsSameAddress(v.(city := None), v.(city := Some("")));
    SamePartsSameAddress(v.(state := None), v.(state := Some("")));
    SamePartsSameAddress(v.(postalCode := None), v.(postalCode := Some("")));
  }

  /** With exactly one non-empty column, the address is that column unchanged. */
  lemma SingleField(v: Vendor, k: nat)
    requires k < 5 && Present(FullAddressFields(v)[k])
    requires forall i | 0 <= i < 5 && i != k :: !Present(FullAddressFields(v)[i])
    ensures Join(NonEmpty(FullAddressFields(v)), ", ") == FullAddressFields(v)[k].value
  {
    NonEmptyOnly(FullAddressFields(v), k);
  }

  /** A non-empty country is the last segment of the address. */
  lemma EndsWithCountry(v: Vendor)
    requires v.country != ""
    ensures var r := Join(NonEmpty(FullAddressFields(v)), ", ");
      |v.country| <= |r| && r[|r| - |v.country|..] == v.country
  {
    NonEmptyLast(FullAddressFields(v));
    JoinEndsWithLast(NonEmpty(FullAddressFields(v)), ", ");
  }
}
